=== FILE: README.md ===
# Patient profiles, sharing and patient records — a Dafny model

This project models the data core of a browser-based medical record manager. Doctors
and patients sign in. Patients keep personal and medical data and share it with chosen
doctors. Doctors keep a list of patients and add diagnoses. Two TypeScript files hold
this logic:

- `src/lib/patient-profile-api.ts` covers the following:
  - the patient's personal and medical data, stored one record per user in a local
    list with an optional write-through to the backend;
  - the catalogue of registered doctors and its free-text search;
  - the sharing grants (`SharedData`) between a patient and a doctor.
- `src/lib/patient-api.ts` covers the following:
  - creating a patient, with its validation;
  - the patient list of the logged-in doctor;
  - reading one patient;
  - adding and listing diagnoses.

The model is written in plain functions over immutable data.

- **Local storage.** Each local list is a `seq`.
- **Backend calls.** The outcome of every backend call is a parameter:
  - `Query`: rows or an error;
  - `Write`: written or an error;
  - `Fetch`: found, missing or an error.
  Every operation is therefore modelled for every answer the backend can give.
- **Inputs from the environment.** Fresh ids and the current time are also parameters.
- **Results.** An operation that throws returns `Reply.Thrown(message)`. For an error
  the backend reports, the message is the exact one of the source. An exception thrown
  by the client itself is folded into that error case, so the model gives it the source's
  "Erro ao …" prefix where the source rethrows it with its raw message.

JavaScript's built-in behaviour is written out in `text.dfy`:

- `trim` over the ECMAScript whitespace set;
- `toLowerCase` for ASCII and Latin-1;
- `includes`;
- `split(" ")`, together with the join it inverts;
- decimal rendering of numbers.

Optional strings follow JavaScript truthiness: `Truthy(o)` means present and non-empty.
The operator `a || b` becomes `Or` and `OrElse`.

Modules:

| file | module | models |
|---|---|---|
| common.dfy | Common | options, truthiness, backend outcomes, the user row, order-preserving `Filter` |
| text.dfy | Text | trim, lower-casing, `includes`, split/join, decimal numbers |
| sharing.dfy | Sharing | grant and revoke on the local grant list |
| profiles.dfy | Profiles | personal and medical data: upsert, save, lookup |
| doctors.dfy | Doctors | `mapUserToDoctor`, the catalogue, `searchDoctors`, `getSharedDoctors` |
| patients.dfy | Patients | `createPatient`, `getPatients`, the own-plus-shared merge, `getPatientById` |
| diagnoses.dfy | Diagnoses | `addDiagnosis`, `getDiagnoses` |

## Model

| member | source | states |
|---|---|---|
| Profiles.FindIndex | src/lib/patient-profile-api.ts:134 | The index found is the first record of the user. None means the user has no record at all. |
| Profiles.LocalFind | src/lib/patient-profile-api.ts:120-122 | A local read returns the first record of the user in the list. It returns null exactly when no record has that user id. |
| Profiles.Upsert | src/lib/patient-profile-api.ts:133-154 | The user's existing record keeps its position, id and creation time, and takes the form's fields over its old ones. Every other record is unchanged. A user with no record gets a new one appended, with the fresh id and both timestamps `now`. |
| Profiles.Save | src/lib/patient-profile-api.ts:125-235 | The returned record is always the upserted one. The local list is left alone when remote profiles are on and the backend write succeeds. In every other case the upsert reaches the local list. |
| Profiles.Lookup | src/lib/patient-profile-api.ts:44-123 | With remote profiles on, a found row is returned converted, and a missing row is null. Only a backend error, or remote profiles off, falls back to the local list. |
| Profiles.MedicalFromRow | src/lib/patient-profile-api.ts:289-305 | A zero weight is dropped and a present non-zero weight is kept. Every yes/no answer becomes defined, and it is true exactly when the row said true. The id, owner, height, exercise frequency and timestamps are kept. |
| Profiles.ApplyPersonalIdempotent | src/lib/patient-profile-api.ts:140-144 | Spreading the same personal form twice over a record's fields is spreading it once. |
| Profiles.UpsertKeepsUnique | src/lib/patient-profile-api.ts:228-232 | The upsert keeps the invariant "at most one local record per user". |
| Profiles.UpsertThenFind | src/lib/patient-profile-api.ts:228-232 | Reading the local list right after the upsert finds the record just saved. |
| Profiles.UpsertOtherUser | src/lib/patient-profile-api.ts:228-232 | A save for one user leaves what a local read returns for every other user unchanged. |
| Profiles.PersonalSaveThenGet | src/lib/patient-profile-api.ts:227-234 | With remote profiles off, reading the personal data right after saving it returns the saved record. |
| Profiles.MedicalSaveThenGet | src/lib/patient-profile-api.ts:436-443 | With remote profiles off, reading the medical data right after saving it returns the saved record. |
| Profiles.PersonalSaveTwice | src/lib/patient-profile-api.ts:138-145 | With remote profiles off, saving the same form twice is saving it once. The second save keeps the list length, the id, the creation time and the fields of the first. |
| Profiles.RemoteSaveTwiceInsertsAgain | src/lib/patient-profile-api.ts:176-208 | With remote profiles on, two accepted saves for a user with no local record leave the local list as it was. Each takes the insert branch, so the second record carries the second fresh id and creation time. |
| Profiles.RemoteSaveLeavesLocal | src/lib/patient-profile-api.ts:204-208 | After a save the backend accepted, a later local read sees what the local list held before. |
| Sharing.FindActive | src/lib/patient-profile-api.ts:656-661 | The search finds a grant exactly when some active grant for the pair exists. What it finds is the first such grant. |
| Sharing.Share | src/lib/patient-profile-api.ts:647-678 | The returned grant is active for the pair and is in the list. The list only grows, by at most one record. It is unchanged exactly when an active grant already existed, and then the first one is returned. Otherwise a new active grant with the fresh id and time is appended. |
| Sharing.StopSharing | src/lib/patient-profile-api.ts:680-694 | Afterwards no grant of the pair is active. Every record keeps its position. The pair's records keep all their other fields. Records of other pairs are untouched. |
| Sharing.ShareActiveCount | src/lib/patient-profile-api.ts:655-675 | When the pair had at most one active grant before a grant, it has exactly one after. |
| Sharing.ShareIdempotent | src/lib/patient-profile-api.ts:655-665 | A second grant for the pair returns the first call's grant and list, whatever id and time it is given. |
| Sharing.ShareTwiceOneActive | src/lib/patient-profile-api.ts:647-678 | Two successive grants for a pair with no active grant leave exactly one active grant. |
| Sharing.StopSharingOtherPairs | src/lib/patient-profile-api.ts:687-691 | Revoking a pair changes, for no record, whether it is an active grant of another pair. |
| Sharing.ShareAfterStopAppends | src/lib/patient-profile-api.ts:647-694 | A grant after a revocation appends a fresh active record and reactivates none. The old records keep their ids and times and stay inactive. |
| Doctors.MapUserToDoctor | src/lib/patient-profile-api.ts:541-574 | The doctor's name is never blank. It is the first truthy full-name or name field when that is not blank, else "Sem nome cadastrado". The CRM defaults to "123456". State, specialty and city default to "". Id and e-mail are copied. The creation time is the first truthy one of `createdAt` and `created_at`, else the current time. |
| Doctors.MapUserToDoctorStable | src/lib/patient-profile-api.ts:541-574 | The mapping is a normalisation. A catalogue entry written back as a user row maps to itself again, at any later time. |
| Doctors.BlankFullNameHidesName | src/lib/patient-profile-api.ts:544-548 | A blank but truthy `fullName` hides a good `name`: the doctor is shown as "Sem nome cadastrado". |
| Doctors.RegisteredDoctors | src/lib/patient-profile-api.ts:461-538 | The catalogue holds one entry per user whose profession is `medico`, in the users' order, each mapped. Every such user's entry is present and every entry comes from such a user. The users come from the backend when remote profiles are on and the query succeeds, else from the local users. |
| Doctors.MapAllStable | src/lib/patient-profile-api.ts:492-494 | Mapping users, writing the entries back as doctor user rows and mapping them again gives the same entries. |
| Doctors.RegisteredDoctorsStable | src/lib/patient-profile-api.ts:522-533 | Every catalogue entry has a non-blank name. The catalogue, written back as doctor user rows and read from the local users, is the same catalogue. |
| Doctors.AllWordsIn | src/lib/patient-profile-api.ts:613-616 | True exactly when every word occurs in the name. |
| Doctors.SearchDoctors | src/lib/patient-profile-api.ts:586-631 | A blank term returns the whole catalogue. Otherwise the result holds every matching entry, with its multiplicity, in catalogue order, and nothing else. |
| Doctors.NameMatchImpliesWordsMatch | src/lib/patient-profile-api.ts:599-616 | A name that contains the whole term contains every word of it. |
| Doctors.SearchFindsNames | src/lib/patient-profile-api.ts:612-626 | A doctor whose name contains every word of the term, in any order, is found. |
| Doctors.SearchByWordsExample | src/lib/patient-profile-api.ts:594-626 | "Ana Souza" is found by the query "  souza ANA ". |
| Doctors.SharedDoctors | src/lib/patient-profile-api.ts:696-709 | The result holds every catalogue entry for which the patient has an active grant, with its multiplicity, in catalogue order, and nothing else. |
| Doctors.ShareListsDoctor | src/lib/patient-profile-api.ts:696-709 | After a grant, the doctor is among the patient's shared doctors. |
| Doctors.StopUnlistsDoctor | src/lib/patient-profile-api.ts:687-707 | After a revocation, the doctor is not among the patient's shared doctors. |
| Patients.Validate | src/lib/patient-api.ts:339-358 | The form passes exactly when it is valid. Otherwise the message is that of the first failing check, in the order name, age, state, city, weight. |
| Patients.NewPatientRow | src/lib/patient-api.ts:360-371 | For a form that passed validation, the inserted row holds the trimmed name, city and state, each non-blank and with no surrounding whitespace, the trimmed notes or "", status "ativo", the creation time and the current user as doctor. It carries the fresh id and the form's age and weight. |
| Patients.CreatePatient | src/lib/patient-api.ts:321-399 | A patient is created exactly when the backend is configured, a user is logged in, the form is valid and the insert succeeds. Each failure has its own message. The new patient has trimmed, non-blank text fields, status "ativo", no sharing, and the current user as doctor. |
| Patients.CreateIsNormalised | src/lib/patient-api.ts:360-371 | A created patient is a fixed point of creation: its fields pass validation, and creating it again gives the same patient. |
| Patients.BlankNameRefused | src/lib/patient-api.ts:340-342 | A whitespace-only name is refused with the name message, whatever the rest of the form holds. |
| Patients.OwnedView | src/lib/patient-api.ts:301-313 | An owned patient is not shared. Id, name, age, city, state, weight, creation time and doctor are copied from the row. A falsy status becomes "ativo" and falsy notes become "". |
| Patients.TestPatient | src/lib/patient-api.ts:43-58 | The hard-coded test patient is a well-formed shared patient. |
| Patients.ShareView | src/lib/patient-api.ts:99-112 | The patient shown for a share row has the share's patient id and share id, and is shared. |
| Patients.GetPatients | src/lib/patient-api.ts:21-134 | With no user, the result is an empty page of size 10. Without a backend, on a failed query or with no share rows, it is the test patient alone. Otherwise it holds one shared patient per share row, in order, on one page of that size. |
| Patients.SharedNamesDistinct | src/lib/patient-api.ts:99-101 | The placeholder names given to shared patients are pairwise distinct. |
| Patients.SharedView | src/lib/patient-api.ts:189-205 | A shared patient in the merge is named by the user's name, else e-mail, else "Paciente Compartilhado". It has city and state "N/A" and no age or weight. |
| Patients.PatientShares | src/lib/patient-api.ts:173-212 | The merge keeps every share whose user was found and is a patient, with its multiplicity, in row order, and nothing else. |
| Patients.MergeListing | src/lib/patient-api.ts:136-264 | The merged list is the own patients followed by the kept shared ones, and the flag `isShared` separates the two parts. A failed query contributes nothing. Everything sits on a single page. |
| Patients.MergeSize | src/lib/patient-api.ts:173-237 | The merged list is no longer than the own rows plus the share rows. It is exactly that long when every share is a patient's. |
| Patients.GetPatientById | src/lib/patient-api.ts:268-318 | The call throws exactly for a backend error that is neither "not found" (PGRST116) nor a network failure. It returns null when not configured or on those two errors, and otherwise the owned view of the row. |
| Patients.CreateThenGetById | src/lib/patient-api.ts:360-394 | Reading back the inserted row gives the patient that creation returned. |
| Diagnoses.InsertErrorMessage | src/lib/patient-api.ts:507-530 | The missing-table message is given exactly when the error looks like a missing table. The missing-column message is never given. Any other error yields the generic message with the first non-empty of message, details and hint. |
| Diagnoses.ColumnErrorReadsAsMissingTable | src/lib/patient-api.ts:515-525 | Every missing-column error is reported as a missing table. |
| Diagnoses.MissingColumnExample | src/lib/patient-api.ts:515-525 | Postgres' own message for a missing column of `diagnoses` gets the missing-table message. |
| Diagnoses.AddDiagnosis | src/lib/patient-api.ts:468-537 | A diagnosis is added exactly when configured, logged in and the insert succeeds. The inserted row carries the submitted status as its diagnosis text and the current user as its doctor. |
| Diagnoses.ToDiagnosis | src/lib/patient-api.ts:564-574 | A missing code becomes "". A missing date becomes the locale rendering of the creation time. Every other field is copied. |
| Diagnoses.ListErrorKeepsMeaning | src/lib/patient-api.ts:575-583 | The wrapped list error mentions "does not exist" exactly when the backend's message does. |
| Diagnoses.GetDiagnoses | src/lib/patient-api.ts:540-584 | Without a backend, or when the table is missing, the result is an empty list. Any other error is thrown with its message. Otherwise the rows are mapped one to one, in the backend's order. |

Notes on what the code does (the model follows it):

- **Unreachable merge code.** The own-plus-shared merge at `patient-api.ts:136-264` sits
  after the closing brace of `getPatients`. It is never executed. It is modelled on its
  own as `MergeListing`, so that its intended behaviour is stated.
- **No active flag and no deduplication.** The live `getPatients` turns every share
  row of the doctor into a patient. It ignores any active flag and does not remove
  duplicates by patient. With no logged-in user it returns an empty list. Without a
  backend, on a query error or a thrown exception, or when the query returns no share
  rows, it answers with a hard-coded test patient.
- **No access check against grants.** No operation of these files checks a grant before
  reading or writing patient data. The errors they do throw are: "❌ Supabase não está
  configurado" without a backend (`createPatient`, `addDiagnosis`), "❌ Usuário não
  autenticado" without a logged-in user, the validation messages of `createPatient`,
  the insert and query errors of the backend, and the `getPatientById` errors other
  than "not found" and network failures.
- **Unreachable missing-column message.** In `addDiagnosis` the missing-table test
  already matches every message containing "does not exist". The missing-column
  message is therefore unreachable (`ColumnErrorReadsAsMissingTable`).
- **Redundant catch test.** In `getDiagnoses` the catch block looks again for
  "does not exist" in the wrapped message. That test never changes the outcome
  (`ListErrorKeepsMeaning`).

## Left out

- Storage and transport are left out: `localStorage`, JSON encoding, the Supabase
  client, the `delay` pauses and logging. Lists and backend answers are parameters.
- Fresh values are parameters: `generateId` (time plus randomness) and
  `new Date().toISOString()`. A new profile record takes one `now` for both timestamps,
  where the source reads the clock twice.
- `toLocaleDateString("pt-BR")` in `getDiagnoses` is a function parameter.
- Each save of personal or medical data is one atomic step. The source reads the local
  list (`patient-profile-api.ts:133`, `:342`), awaits the backend, then writes the list
  back (`:228-233`, `:437-442`). A concurrent save made while it waits is overwritten.
  That interleaving is not modelled.
- Ages are `int` and weights are `real`. A fractional, NaN or infinite age or weight
  cannot be represented, so the source's `!data.age || data.age <= 0` checks
  (`patient-api.ts:344`, `:356`) are modelled only on those values.
- `parseFloat` of the backend's medical weight is not modelled. Numbers are `real`, and
  a present, non-zero weight is copied as it is.
- Profiles.MedicalFromRow: the weight is copied instead of parsed, because a backend
  string is not modelled. "Never weight 0" therefore holds only for a numeric weight:
  a truthy string "0" from the backend would pass the check and `parseFloat` would
  turn it into 0.
- Lower-casing covers ASCII and Latin-1 letters only. Other scripts' case mappings are
  outside the model.
- `loadRegisteredDoctors` writes the catalogue to local storage before the search reads
  it. `SearchDoctors` takes the catalogue directly.
- Not part of this model, because they lie outside its scope:
  - `updatePatient`, `deletePatient`, `removePatientSharing`;
  - `clearDoctorsData`, `clearAllData`.
- Diagnoses.AddDiagnosis: the source returns nothing on success, and the model returns
  the inserted row instead, so that its contents can be stated.
- The backend's newest-first ordering of diagnoses and patients is the backend's
  business. The model keeps whatever order the rows arrive in.
- The JavaScript type checks on form fields (`typeof data.name !== 'string'`) are folded
  into `Option`: a field of the wrong type is modelled as absent.

=== FILE: common.dfy ===
/** Values shared by every part of the model: optional values with JavaScript
    truthiness, the backend's error record and query outcome, thrown errors, the
    `users` row, and an order-preserving filter over lists. */
module Common {

  /** A value that may be `undefined`/`null` (None) or present (Some). */
  datatype Option<+T> = None | Some(value: T)

  /** A JavaScript string operand is truthy when it is present and not the empty string. */
  predicate Truthy(o: Option<string>) {
    o.Some? && o.value != ""
  }

  /** `a || b` on optional strings. */
  function Or(a: Option<string>, b: Option<string>): Option<string> {
    if Truthy(a) then a else b
  }

  /** `a || fallback` where the fallback is a literal string. */
  function OrElse(a: Option<string>, fallback: string): string {
    if Truthy(a) then a.value else fallback
  }

  /** `a || b || fallback` always yields a truthy string when the fallback is non-empty. */
  lemma OrElseTruthy(a: Option<string>, fallback: string)
    requires fallback != ""
    ensures OrElse(a, fallback) != ""
    ensures OrElse(a, fallback) == fallback || Some(OrElse(a, fallback)) == a
  {
  }

  /** The error record the backend client returns (every field is a string, possibly empty). */
  datatype DbError = DbError(message: string, details: string, hint: string, code: string)

  /** The outcome of a backend read: the rows it returned, or an error (a thrown
      exception of the client is folded into the error case). */
  datatype Query<T> = Rows(rows: T) | QueryError(error: DbError)

  /** The outcome of a backend write. */
  datatype Write = Written | WriteError(error: DbError)

  /** The outcome of an API call: a returned value or a thrown `Error` with its message. */
  datatype Reply<T> = Value(value: T) | Thrown(message: string)

  /** A row of the `users` table (or of the locally stored user list). The two
      spellings of the full name and of the creation time are the local
      (`fullName`, `createdAt`) and the database (`full_name`, `created_at`) ones. */
  datatype UserRow = UserRow(
    id: string,
    email: Option<string>,
    profession: Option<string>,
    name: Option<string>,
    fullName: Option<string>,
    fullNameColumn: Option<string>,
    crm: Option<string>,
    state: Option<string>,
    specialty: Option<string>,
    city: Option<string>,
    createdAt: Option<string>,
    createdAtColumn: Option<string>)

  /** `a` can be obtained from `b` by deleting elements: the relative order of `a` is the one in `b`. */
  predicate IsSubsequence<T(==)>(a: seq<T>, b: seq<T>)
    decreases |b|
  {
    |a| == 0 ||
    (|b| > 0 && ((a[0] == b[0] && IsSubsequence(a[1..], b[1..])) || IsSubsequence(a, b[1..])))
  }

  /** `Array.prototype.filter`: the elements of `xs` that `keep` accepts, in their order. */
  function Filter<T(==,!new)>(xs: seq<T>, keep: T -> bool): (r: seq<T>)
    ensures IsSubsequence(r, xs) && |r| <= |xs|
    ensures forall x :: x in r ==> keep(x)
    ensures forall x :: multiset(r)[x] == if keep(x) then multiset(xs)[x] else 0
    decreases |xs|
  {
    if |xs| == 0 then []
    else
      var rest := Filter(xs[1..], keep);
      assert xs == [xs[0]] + xs[1..];
      if keep(xs[0]) then [xs[0]] + rest else rest
  }

  /** Every element `keep` accepts survives the filter. */
  lemma FilterKeeps<T(!new)>(xs: seq<T>, keep: T -> bool, x: T)
    requires x in xs && keep(x)
    ensures x in Filter(xs, keep)
  {
    assert multiset(xs)[x] > 0;
  }

  /** `xs.filter(keep).map(f)`: its elements are exactly the images of the kept elements. */
  lemma FilterMapMembers<A(!new), B>(xs: seq<A>, keep: A -> bool, f: A -> B, ys: seq<B>)
    requires |ys| == |Filter(xs, keep)|
    requires forall k :: 0 <= k < |ys| ==> ys[k] == f(Filter(xs, keep)[k])
    ensures forall y :: y in ys ==> exists x :: x in xs && keep(x) && y == f(x)
    ensures forall x :: x in xs && keep(x) ==> f(x) in ys
  {
    var kept := Filter(xs, keep);
    forall y | y in ys ensures exists x :: x in xs && keep(x) && y == f(x) {
      var k :| 0 <= k < |ys| && ys[k] == y;
      var x := kept[k];
      assert x in kept;
      assert multiset(kept)[x] > 0;
      assert x in xs && keep(x);
    }
    forall x | x in xs && keep(x) ensures f(x) in ys {
      FilterKeeps(xs, keep, x);
      var k :| 0 <= k < |kept| && kept[k] == x;
      assert ys[k] == f(x);
    }
  }

  /** Filtering with a condition that holds of every element returns the list itself. */
  lemma {:induction false} FilterAll<T(!new)>(xs: seq<T>, keep: T -> bool)
    requires forall x :: x in xs ==> keep(x)
    ensures Filter(xs, keep) == xs
    decreases |xs|
  {
    if |xs| > 0 {
      FilterAll(xs[1..], keep);
    }
  }
}

=== FILE: diagnoses.dfy ===
/** Diagnoses of `patient-api.ts`: adding one (with the classification of the
    backend's insert error into a message) and listing a patient's diagnoses (where a
    missing table reads as an empty list). */
module Diagnoses {
  import opened Common
  import opened Text
  import opened Patients

  /** A row of the `diagnoses` table. */
  datatype DiagnosisRow = DiagnosisRow(
    id: string,
    patientId: string,
    doctorId: string,
    diagnosis: string,
    code: Option<string>,
    date: Option<string>,
    createdAt: Option<string>)

  /** The `Diagnosis` view returned to callers. */
  datatype Diagnosis = Diagnosis(
    id: string,
    patientId: string,
    diagnosis: string,
    code: string,
    date: string,
    createdAt: Option<string>,
    doctorId: string)

  /** What the caller of `addDiagnosis` submits. */
  datatype DiagnosisInput = DiagnosisInput(date: string, status: string, code: string)

  const DoesNotExist := "does not exist"
  const MissingTableCode := "42P01"
  /** The mark that opens every configuration error message. */
  const Cross := "❌ "
  const MissingTable :=
    Cross + "Tabela 'diagnoses' não existe no banco de dados. Execute o script 'fix_all_database_errors.sql' no Supabase SQL Editor para criar as tabelas necessárias."
  const MissingColumns :=
    Cross + "Colunas necessárias não existem na tabela 'diagnoses'. Execute o script 'fix_all_database_errors.sql' no Supabase SQL Editor."
  const UnknownDbError := "Erro de banco de dados desconhecido"
  const AddPrefix := "Erro ao adicionar diagnóstico: "
  const ListPrefix := "Erro ao buscar diagnósticos: "

  /** The insert error says the table is missing: its message mentions "does not exist",
      its code is 42P01, or its message mentions both "relation" and "diagnoses". */
  predicate TableMissing(e: DbError) {
    || (e.message != "" && Contains(e.message, DoesNotExist))
    || e.code == MissingTableCode
    || (e.message != "" && Contains(e.message, "relation") && Contains(e.message, "diagnoses"))
  }

  /** The insert error says a column is missing. */
  predicate ColumnMissing(e: DbError) {
    e.message != "" && Contains(e.message, "column") && Contains(e.message, DoesNotExist)
  }

  /** The message `addDiagnosis` throws for a failed insert: the missing-table message,
      else the missing-column message, else the generic message carrying the first
      non-empty of message, details and hint (or a fixed text). */
  function InsertErrorMessage(e: DbError): (m: string)
    ensures m == MissingTable <==> TableMissing(e)
    ensures m != MissingColumns
    ensures !TableMissing(e) ==>
      m == AddPrefix + (if e.message != "" then e.message else if e.details != "" then e.details
                        else if e.hint != "" then e.hint else UnknownDbError)
  {
    assert AddPrefix[0] != Cross[0] == MissingTable[0] == MissingColumns[0];
    if TableMissing(e) then MissingTable
    else if ColumnMissing(e) then MissingColumns
    else
      var m := AddPrefix + OrElse(Or(Or(Some(e.message), Some(e.details)), Some(e.hint)), UnknownDbError);
      assert m[0] == AddPrefix[0];
      m
  }

  /** Every missing-column error also reads as a missing table, so the missing-column
      message is never produced. */
  lemma ColumnErrorReadsAsMissingTable(e: DbError)
    requires ColumnMissing(e)
    ensures InsertErrorMessage(e) == MissingTable
  {
  }

  /** Postgres' own wording for a missing column gets the missing-table message. */
  lemma MissingColumnExample(e: DbError)
    requires e.message == "column" + " \"code\" of relation \"diagnoses\" " + DoesNotExist
    ensures ColumnMissing(e) && InsertErrorMessage(e) == MissingTable
  {
    var middle := " \"code\" of relation \"diagnoses\" ";
    ContainsTrivial("column");
    ContainsConcat("column", middle, "column");
    ContainsConcat("column" + middle, DoesNotExist, "column");
    ContainsTrivial(DoesNotExist);
    ContainsConcat("column" + middle, DoesNotExist, DoesNotExist);
  }

  /** The row `addDiagnosis` inserts: the submitted status becomes the diagnosis text,
      and the current user is the doctor. */
  function NewDiagnosisRow(user: CurrentUser, patientId: string, input: DiagnosisInput,
                           freshId: string, now: string): DiagnosisRow
  {
    DiagnosisRow(freshId, patientId, user.id, input.status, Some(input.code), Some(input.date), Some(now))
  }

  /** `addDiagnosis(patientId, data)`: fails without a backend or a logged-in user, and
      with the classified message when the insert fails; otherwise the inserted row. */
  function AddDiagnosis(configured: bool, user: Option<CurrentUser>, patientId: string, input: DiagnosisInput,
                        freshId: string, now: string, insert: Write): (r: Reply<DiagnosisRow>)
    ensures r.Value? <==> configured && user.Some? && insert.Written?
    ensures !configured ==> r == Thrown(NotConfigured)
    ensures configured && user.None? ==> r == Thrown(NotAuthenticated)
    ensures configured && user.Some? && insert.WriteError? ==> r == Thrown(InsertErrorMessage(insert.error))
    ensures r.Value? ==>
      && r.value.id == freshId && r.value.patientId == patientId && r.value.doctorId == user.value.id
      && r.value.diagnosis == input.status && r.value.code == Some(input.code)
      && r.value.date == Some(input.date) && r.value.createdAt == Some(now)
  {
    if !configured then Thrown(NotConfigured)
    else if user.None? then Thrown(NotAuthenticated)
    else match insert
      case WriteError(e) => Thrown(InsertErrorMessage(e))
      case Written => Value(NewDiagnosisRow(user.value, patientId, input, freshId, now))
  }

  /** One mapped diagnosis: a missing code becomes "", a missing date becomes the
      creation time formatted by `localeDate` (the `pt-BR` date rendering). */
  function ToDiagnosis(d: DiagnosisRow, localeDate: Option<string> -> string): (r: Diagnosis)
    ensures r.id == d.id && r.patientId == d.patientId && r.doctorId == d.doctorId
    ensures r.diagnosis == d.diagnosis && r.createdAt == d.createdAt
    ensures Truthy(d.code) ==> r.code == d.code.value
    ensures !Truthy(d.code) ==> r.code == ""
    ensures Truthy(d.date) ==> r.date == d.date.value
    ensures !Truthy(d.date) ==> r.date == localeDate(d.createdAt)
  {
    Diagnosis(d.id, d.patientId, d.diagnosis, OrElse(d.code, ""),
              if Truthy(d.date) then d.date.value else localeDate(d.createdAt), d.createdAt, d.doctorId)
  }

  /** The list prefix has no "d" followed by "o", and does not end in "d". */
  lemma ListPrefixShape()
    ensures forall i :: 0 <= i < |ListPrefix| - 1 ==> !(ListPrefix[i] == 'd' && ListPrefix[i + 1] == 'o')
    ensures ListPrefix[|ListPrefix| - 1] != 'd'
  {
  }

  /** No "do" starts inside the list prefix, whatever message follows it. */
  lemma NoDoInPrefix(message: string, i: int)
    requires 0 <= i < |ListPrefix| && i + 1 < |ListPrefix + message|
    ensures (ListPrefix + message)[i] != 'd' || (ListPrefix + message)[i + 1] != 'o'
  {
    var s := ListPrefix + message;
    ListPrefixShape();
    if i < |ListPrefix| - 1 {
      assert s[i] == ListPrefix[i] && s[i + 1] == ListPrefix[i + 1];
    } else {
      assert s[i] == ListPrefix[i];
    }
  }

  /** No occurrence of "does not exist" starts inside the list prefix. */
  lemma NoOccurrenceInListPrefix(message: string, i: int)
    requires 0 <= i < |ListPrefix|
    ensures !OccursAt(ListPrefix + message, DoesNotExist, i)
  {
    var s := ListPrefix + message;
    if i + |DoesNotExist| <= |s| {
      OccursAtHead(s, DoesNotExist, i);
      NoDoInPrefix(message, i);
    }
  }

  /** The thrown list error mentions "does not exist" only when the backend's message does:
      no occurrence can start inside the fixed prefix. */
  lemma ListErrorKeepsMeaning(message: string)
    ensures Contains(ListPrefix + message, DoesNotExist) <==> Contains(message, DoesNotExist)
  {
    var s := ListPrefix + message;
    if Contains(message, DoesNotExist) {
      ContainsConcat(ListPrefix, message, DoesNotExist);
    }
    if Contains(s, DoesNotExist) {
      var i :| OccursAt(s, DoesNotExist, i);
      if i < |ListPrefix| {
        NoOccurrenceInListPrefix(message, i);
        assert false;
      }
      OccursAfterPrefix(ListPrefix, message, DoesNotExist, i);
    }
  }

  /** `getDiagnoses(patientId)`: an empty list without a backend or when the table is
      missing (message mentions "does not exist" or code 42P01); any other error is
      thrown; otherwise the rows mapped one to one, in the order the backend returned
      them (newest first). The catch block's second look for "does not exist" is modelled
      as written; it never changes the outcome. */
  function GetDiagnoses(configured: bool, result: Query<seq<DiagnosisRow>>, localeDate: Option<string> -> string): (r: Reply<seq<Diagnosis>>)
    ensures !configured ==> r == Value([])
    ensures configured && result.QueryError? ==>
      var e := result.error;
      if Contains(e.message, DoesNotExist) || e.code == MissingTableCode then r == Value([])
      else r == Thrown(ListPrefix + e.message)
    ensures configured && result.Rows? ==>
      r.Value? && |r.value| == |result.rows|
      && forall k :: 0 <= k < |result.rows| ==> r.value[k] == ToDiagnosis(result.rows[k], localeDate)
  {
    if !configured then Value([])
    else match result
      case QueryError(e) =>
        if Contains(e.message, DoesNotExist) || e.code == MissingTableCode then Value([])
        else
          var thrown := ListPrefix + e.message;
          ListErrorKeepsMeaning(e.message);
          if Contains(thrown, DoesNotExist) then Value([]) else Thrown(thrown)
      case Rows(rows) =>
        Value(seq(|rows|, k requires 0 <= k < |rows| => ToDiagnosis(rows[k], localeDate)))
  }
}

=== FILE: doctors.dfy ===
/** The doctor catalogue: registered users whose profession is `medico`, each
    normalised into a `Doctor`, the free-text search over the catalogue, and the
    list of doctors a patient currently shares data with. */
module Doctors {
  import opened Common
  import opened Text
  import opened Sharing

  /** A catalogue entry. */
  datatype Doctor = Doctor(
    id: string,
    name: string,
    crm: string,
    state: string,
    specialty: string,
    email: Option<string>,
    city: string,
    createdAt: string)

  const NoName := "Sem nome cadastrado"
  const DefaultCrm := "123456"
  const DoctorProfession := "medico"

  /** `user.fullName || user.full_name || user.name`. */
  function NameCandidate(u: UserRow): Option<string> {
    Or(Or(u.fullName, u.fullNameColumn), u.name)
  }

  /** `mapUserToDoctor`: the first truthy of the two full-name spellings and the name,
      or "Sem nome cadastrado" when that is missing or blank; a missing CRM becomes
      "123456"; missing state, specialty and city become ""; the creation time falls
      back to `now`. */
  function MapUserToDoctor(u: UserRow, now: string): (d: Doctor)
    ensures d.id == u.id && d.email == u.email
    ensures Trim(d.name) != ""
    ensures Truthy(NameCandidate(u)) && Trim(NameCandidate(u).value) != "" ==> d.name == NameCandidate(u).value
    ensures !Truthy(NameCandidate(u)) || Trim(NameCandidate(u).value) == "" ==> d.name == NoName
    ensures d.crm != "" && (Truthy(u.crm) ==> d.crm == u.crm.value) && (!Truthy(u.crm) ==> d.crm == DefaultCrm)
    ensures Truthy(u.state) ==> d.state == u.state.value
    ensures !Truthy(u.state) ==> d.state == ""
    ensures Truthy(u.specialty) ==> d.specialty == u.specialty.value
    ensures !Truthy(u.specialty) ==> d.specialty == ""
    ensures Truthy(u.city) ==> d.city == u.city.value
    ensures !Truthy(u.city) ==> d.city == ""
    ensures Truthy(u.createdAt) ==> d.createdAt == u.createdAt.value
    ensures !Truthy(u.createdAt) ==> d.createdAt == OrElse(u.createdAtColumn, now)
  {
    var candidate := NameCandidate(u);
    var name := if !Truthy(candidate) || Trim(candidate.value) == "" then NoName else candidate.value;
    NoNameNotBlank();
    Doctor(
      u.id,
      name,
      OrElse(u.crm, DefaultCrm),
      OrElse(u.state, ""),
      OrElse(u.specialty, ""),
      u.email,
      OrElse(u.city, ""),
      OrElse(Or(u.createdAt, u.createdAtColumn), now))
  }

  lemma NoNameNotBlank()
    ensures Trim(NoName) != ""
  {
    assert NoName[0] == 'S';
    LeadingLetterNotBlank(NoName);
  }

  /** A string that starts with a non-space character is not blank after trimming. */
  lemma LeadingLetterNotBlank(s: string)
    requires |s| > 0 && !IsSpace(s[0])
    ensures Trim(s) != ""
  {
    TrimBlank(s);
  }

  /** A blank first candidate hides a good later one: with `fullName` "   " and `name`
      "Ana", the doctor is shown as "Sem nome cadastrado". */
  lemma BlankFullNameHidesName(u: UserRow, now: string)
    requires u.fullName == Some("   ") && u.name == Some("Ana")
    ensures MapUserToDoctor(u, now).name == NoName
  {
    var t := "   ";
    assert AllSpace(t);
    TrimBlank(t);
  }

  /** A catalogue entry written back as a user row of the `users` table. */
  function DoctorAsUser(d: Doctor): UserRow {
    UserRow(d.id, d.email, Some(DoctorProfession), Some(d.name), None, None, Some(d.crm), Some(d.state),
            Some(d.specialty), Some(d.city), Some(d.createdAt), None)
  }

  /** The mapping is a normalisation: mapping a catalogue entry again, at any later time,
      gives the same entry. */
  lemma MapUserToDoctorStable(u: UserRow, now: string, later: string)
    requires now != ""
    ensures var d := MapUserToDoctor(u, now);
            MapUserToDoctor(DoctorAsUser(d), later) == d
  {
    var d := MapUserToDoctor(u, now);
    var e := MapUserToDoctor(DoctorAsUser(d), later);
    TrimBlank(d.name);
    assert d.name != "" && NameCandidate(DoctorAsUser(d)) == Some(d.name);
    assert e.name == d.name;
    assert e.crm == d.crm;
    assert e.state == d.state && e.specialty == d.specialty && e.city == d.city;
    OrElseTruthy(Or(u.createdAt, u.createdAtColumn), now);
    assert e.createdAt == d.createdAt;
  }

  predicate IsDoctorUser(u: UserRow) {
    u.profession == Some(DoctorProfession)
  }

  function MapAll(users: seq<UserRow>, now: string): (r: seq<Doctor>)
    ensures |r| == |users|
    ensures forall k :: 0 <= k < |users| ==> r[k] == MapUserToDoctor(users[k], now)
  {
    seq(|users|, k requires 0 <= k < |users| => MapUserToDoctor(users[k], now))
  }

  /** `getRegisteredDoctors`: with remote profiles enabled and a successful query of the
      `users` table (filtered on `profession = 'medico'`), its doctors; otherwise the
      locally stored users, filtered on the same profession. Either way the catalogue is
      the doctor users, in order, each mapped by `MapUserToDoctor`. */
  function RegisteredDoctors(remoteProfiles: bool, remoteUsers: Query<seq<UserRow>>, localUsers: seq<UserRow>,
                             now: string): (r: seq<Doctor>)
    ensures var source := if remoteProfiles && remoteUsers.Rows? then remoteUsers.rows else localUsers;
            && |r| == |Filter(source, IsDoctorUser)| <= |source|
            && (forall k :: 0 <= k < |r| ==> r[k] == MapUserToDoctor(Filter(source, IsDoctorUser)[k], now))
            && (forall d :: d in r ==> exists u :: u in source && IsDoctorUser(u) && d == MapUserToDoctor(u, now))
            && (forall u :: u in source && IsDoctorUser(u) ==> MapUserToDoctor(u, now) in r)
  {
    var source := if remoteProfiles && remoteUsers.Rows? then remoteUsers.rows else localUsers;
    var r := MapAll(Filter(source, IsDoctorUser), now);
    FilterMapMembers(source, IsDoctorUser, (u: UserRow) => MapUserToDoctor(u, now), r);
    r
  }

  /** Doctor entries written back as user rows. */
  function AsUsers(ds: seq<Doctor>): (r: seq<UserRow>)
    ensures |r| == |ds|
    ensures forall k :: 0 <= k < |ds| ==> r[k] == DoctorAsUser(ds[k])
    ensures forall u :: u in r ==> IsDoctorUser(u)
  {
    seq(|ds|, k requires 0 <= k < |ds| => DoctorAsUser(ds[k]))
  }

  /** Mapping users, writing the entries back as user rows and mapping those again
      gives the same entries. */
  lemma MapAllStable(users: seq<UserRow>, now: string, later: string)
    requires now != ""
    ensures var ds := MapAll(users, now);
            MapAll(AsUsers(ds), later) == ds
  {
    var ds := MapAll(users, now);
    var again := MapAll(AsUsers(ds), later);
    forall k | 0 <= k < |ds| ensures again[k] == ds[k] {
      MapUserToDoctorStable(users[k], now, later);
    }
  }

  /** The catalogue, written back as doctor user rows and read again from the local
      users, is the same catalogue; every entry has a non-blank name. */
  lemma RegisteredDoctorsStable(remoteProfiles: bool, remoteUsers: Query<seq<UserRow>>,
                                localUsers: seq<UserRow>, now: string, later: string)
    requires now != ""
    ensures var r := RegisteredDoctors(remoteProfiles, remoteUsers, localUsers, now);
            && (forall d :: d in r ==> Trim(d.name) != "")
            && RegisteredDoctors(false, remoteUsers, AsUsers(r), later) == r
  {
    var r := RegisteredDoctors(remoteProfiles, remoteUsers, localUsers, now);
    var source := if remoteProfiles && remoteUsers.Rows? then remoteUsers.rows else localUsers;
    var kept := Filter(source, IsDoctorUser);
    assert r == MapAll(kept, now);
    FilterAll(AsUsers(r), IsDoctorUser);
    MapAllStable(kept, now, later);
  }

  /** `searchWords.every(word => name.includes(word))`. */
  function AllWordsIn(name: string, words: seq<string>): (r: bool)
    ensures r <==> forall w :: w in words ==> Contains(name, w)
    decreases |words|
  {
    if |words| == 0 then true
    else if !Contains(name, words[0]) then
      assert words[0] in words;
      false
    else
      var r := AllWordsIn(name, words[1..]);
      assert r ==> forall w :: w in words ==> Contains(name, w) by {
        if r {
          forall w | w in words ensures Contains(name, w) {
            if w != words[0] {
              var k :| 0 <= k < |words| && words[k] == w;
              assert words[1..][k - 1] == w;
            }
          }
        }
      }
      assert !r ==> exists w :: w in words && !Contains(name, w) by {
        if !r {
          var w :| w in words[1..] && !Contains(name, w);
          var k :| 0 <= k < |words| - 1 && words[1..][k] == w;
          assert words[k + 1] == w;
        }
      }
      r
  }

  /** The filter condition of `searchDoctors` for one doctor and the lower-cased,
      trimmed search term: name, CRM, "CRM-state", specialty, state, city, or every
      space-separated word of the term in the name. */
  predicate Matches(d: Doctor, term: string) {
    || Contains(Lower(d.name), term)
    || Contains(d.crm, term)
    || Contains(Lower(d.crm + "-" + d.state), Lower(term))
    || Contains(Lower(d.specialty), term)
    || Contains(Lower(d.state), Lower(term))
    || Contains(Lower(d.city), term)
    || AllWordsIn(Lower(d.name), Split(term, ' '))
  }

  /** The search term: the query lower-cased, then trimmed. */
  function SearchTerm(query: string): string {
    Trim(Lower(query))
  }

  /** `searchDoctors(query)` over the refreshed catalogue: a blank term returns the whole
      catalogue; otherwise the doctors that match, in catalogue order. */
  function SearchDoctors(doctors: seq<Doctor>, query: string): (r: seq<Doctor>)
    ensures SearchTerm(query) == "" ==> r == doctors
    ensures IsSubsequence(r, doctors)
    ensures SearchTerm(query) != "" ==>
      forall d :: d in doctors ==> (d in r <==> Matches(d, SearchTerm(query)))
    ensures SearchTerm(query) != "" ==>
      forall d :: multiset(r)[d] == if Matches(d, SearchTerm(query)) then multiset(doctors)[d] else 0
  {
    var term := SearchTerm(query);
    if term == "" then
      assert IsSubsequence(doctors, doctors) by { SubsequenceReflexive(doctors); }
      doctors
    else
      var r := Filter(doctors, d => Matches(d, term));
      assert forall d :: d in doctors && Matches(d, term) ==> d in r by {
        forall d | d in doctors && Matches(d, term) ensures d in r {
          FilterKeeps(doctors, d => Matches(d, term), d);
        }
      }
      r
  }

  lemma {:induction false} SubsequenceReflexive<T>(xs: seq<T>)
    ensures IsSubsequence(xs, xs)
    decreases |xs|
  {
    if |xs| > 0 {
      SubsequenceReflexive(xs[1..]);
    }
  }

  /** The whole-term name match is subsumed by the word-by-word one: every word of the
      term occurs in the term, so a name containing the term contains every word. */
  lemma NameMatchImpliesWordsMatch(name: string, term: string)
    requires Contains(name, term)
    ensures AllWordsIn(name, Split(term, ' '))
  {
    forall w | w in Split(term, ' ') ensures Contains(name, w) {
      SplitWordsOccur(term, ' ', w);
      ContainsTransitive(name, term, w);
    }
  }

  /** A doctor whose lower-cased name contains every word of the term (in any order) is
      found, and so is one whose name contains the whole term. */
  lemma SearchFindsNames(doctors: seq<Doctor>, query: string, d: Doctor)
    requires d in doctors
    requires AllWordsIn(Lower(d.name), Split(SearchTerm(query), ' ')) || Contains(Lower(d.name), SearchTerm(query))
    ensures d in SearchDoctors(doctors, query)
  {
    if SearchTerm(query) != "" {
      assert Matches(d, SearchTerm(query));
    }
  }

  /** The query "  souza ANA " becomes the term "souza ana". */
  lemma ExampleTerm()
    ensures SearchTerm("  souza ANA ") == "souza ana"
  {
    var q := "  souza ANA ";
    var l := Lower(q);
    assert l == "  " + "souza ana" + " " by {
      assert l[8] == LowerChar('A') == 'a';
      assert l[9] == LowerChar('N') == 'n';
      assert l[10] == LowerChar('A') == 'a';
      assert l[11] == LowerChar(' ') == ' ';
    }
    TrimPadded("  ", "souza ana", " ");
  }

  /** The term "souza ana" splits into its two words. */
  lemma ExampleWords()
    ensures Split("souza ana", ' ') == ["souza", "ana"]
  {
    var words := ["souza", "ana"];
    assert ' ' !in words[0] && ' ' !in words[1];
    assert Join(words, ' ') == "souza ana" by {
      assert words[1..] == ["ana"];
    }
    SplitJoin(words, ' ');
  }

  /** Both words occur in the lower-cased name "ana souza". */
  lemma ExampleName()
    ensures Lower("Ana Souza") == "ana souza"
    ensures AllWordsIn("ana souza", ["souza", "ana"])
  {
    var name := Lower("Ana Souza");
    assert name[0] == LowerChar('A') == 'a';
    assert name[4] == LowerChar('S') == 's';
    assert OccursAt("ana souza", "souza", 4);
    assert OccursAt("ana souza", "ana", 0);
  }

  /** "Ana Souza" is found by the query "  souza ANA ": each word occurs in the name,
      although the term as a whole does not. */
  lemma SearchByWordsExample(d: Doctor, query: string)
    requires d.name == "Ana Souza" && query == "  souza ANA "
    ensures d in SearchDoctors([d], query)
  {
    ExampleTerm();
    ExampleWords();
    ExampleName();
    SearchFindsNames([d], query, d);
  }

  /** `getSharedDoctors(patientId)`: the catalogue doctors, in catalogue order, for which
      some stored grant of the patient is active. */
  function SharedDoctors(shares: seq<SharedData>, doctors: seq<Doctor>, patientId: string): (r: seq<Doctor>)
    ensures IsSubsequence(r, doctors)
    ensures forall d :: d in doctors ==> (d in r <==> HasActive(shares, patientId, d.id))
    ensures forall d :: multiset(r)[d] == if HasActive(shares, patientId, d.id) then multiset(doctors)[d] else 0
  {
    var r := Filter(doctors, (d: Doctor) => FindActive(shares, patientId, d.id).Some?);
    assert forall d :: d in doctors && FindActive(shares, patientId, d.id).Some? ==> d in r by {
      forall d | d in doctors && FindActive(shares, patientId, d.id).Some? ensures d in r {
        FilterKeeps(doctors, (d: Doctor) => FindActive(shares, patientId, d.id).Some?, d);
      }
    }
    r
  }

  /** After granting, the doctor is among the patient's shared doctors. */
  lemma ShareListsDoctor(shares: seq<SharedData>, doctors: seq<Doctor>, patientId: string, d: Doctor,
                         freshId: string, now: string)
    requires d in doctors
    ensures d in SharedDoctors(Share(shares, patientId, d.id, freshId, now).store, doctors, patientId)
  {
    var r := Share(shares, patientId, d.id, freshId, now);
    var k :| 0 <= k < |r.store| && r.store[k] == r.grant;
    assert ActiveFor(r.store[k], patientId, d.id);
  }

  /** After revoking, the doctor is no longer among the patient's shared doctors. */
  lemma StopUnlistsDoctor(shares: seq<SharedData>, doctors: seq<Doctor>, patientId: string, d: Doctor)
    ensures d !in SharedDoctors(StopSharing(shares, patientId, d.id), doctors, patientId)
  {
  }
}

=== FILE: patients.dfy ===
/** The patient list and patient records of `patient-api.ts`: creating a patient
    (validation, then a normalised record), listing the patients shared with the
    current doctor, the own-plus-shared merge that follows `getPatients` in the file,
    and reading one patient by id with its error classification. */
module Patients {
  import opened Common
  import opened Text

  /** The `Patient` view returned to callers. */
  datatype Patient = Patient(
    id: string,
    name: string,
    age: Option<int>,
    city: string,
    state: string,
    weight: Option<real>,
    status: string,
    notes: string,
    createdAt: Option<string>,
    doctorId: Option<string>,
    isShared: bool,
    sharedId: Option<string>)

  /** A row of the `patients` table. `name`, `city` and `state` are always written by
      `createPatient`, so they are plain strings here. */
  datatype PatientRow = PatientRow(
    id: string,
    name: string,
    age: Option<int>,
    city: string,
    state: string,
    weight: Option<real>,
    status: Option<string>,
    notes: Option<string>,
    createdAt: Option<string>,
    doctorId: Option<string>)

  /** A row of the `doctor_patient_sharing` table. */
  datatype ShareRow = ShareRow(id: string, patientId: string, doctorId: string, sharedAt: Option<string>)

  datatype Pagination = Pagination(currentPage: nat, totalPages: nat, totalItems: nat, itemsPerPage: nat)

  /** The answer of a list call: the patients and the page they fill. */
  datatype Listing = Listing(patients: seq<Patient>, pagination: Pagination)

  /** The logged-in user read from session storage. */
  datatype CurrentUser = CurrentUser(id: string, email: Option<string>, profession: Option<string>)

  /** A submitted patient form; a field of the wrong JavaScript type counts as missing. */
  datatype PatientForm = PatientForm(
    name: Option<string>,
    age: Option<int>,
    city: Option<string>,
    state: Option<string>,
    weight: Option<real>,
    notes: Option<string>)

  const NotConfigured := "❌ Supabase não está configurado"
  const NotAuthenticated := "❌ Usuário não autenticado"
  const NameRequired := "❌ Nome é obrigatório e não pode estar vazio"
  const AgeRequired := "❌ Idade é obrigatória e deve ser maior que 0"
  const StateRequired := "❌ Estado é obrigatório"
  const CityRequired := "❌ Cidade é obrigatória"
  const WeightRequired := "❌ Peso é obrigatório e deve ser maior que 0"
  const ActiveStatus := "ativo"
  const SharedStatus := "compartilhado"
  const PatientProfession := "paciente"

  /** Every patient is either owned (not shared, no share id) or shared (no doctor,
      with a share id), never both. */
  predicate WellFormed(p: Patient) {
    && (p.isShared ==> p.doctorId.None? && p.sharedId.Some?)
    && (!p.isShared ==> p.sharedId.None?)
  }

  /** A text field that is present and not blank after trimming. */
  predicate Filled(o: Option<string>) {
    o.Some? && Trim(o.value) != ""
  }

  predicate PositiveInt(o: Option<int>) {
    o.Some? && o.value > 0
  }

  predicate PositiveReal(o: Option<real>) {
    o.Some? && o.value > 0.0
  }

  /** The form passes every check of `createPatient`. */
  predicate Valid(form: PatientForm) {
    Filled(form.name) && PositiveInt(form.age) && Filled(form.state) && Filled(form.city) && PositiveReal(form.weight)
  }

  /** The checks of `createPatient` in their order: name, age, state, city, weight;
      the message of the first one that fails, or None. */
  function Validate(form: PatientForm): (r: Option<string>)
    ensures r.None? <==> Valid(form)
    ensures !Filled(form.name) ==> r == Some(NameRequired)
    ensures Filled(form.name) && !PositiveInt(form.age) ==> r == Some(AgeRequired)
    ensures Filled(form.name) && PositiveInt(form.age) && !Filled(form.state) ==> r == Some(StateRequired)
    ensures Filled(form.name) && PositiveInt(form.age) && Filled(form.state) && !Filled(form.city) ==> r == Some(CityRequired)
    ensures (Filled(form.name) && PositiveInt(form.age) && Filled(form.state) && Filled(form.city)
             && !PositiveReal(form.weight)) ==> r == Some(WeightRequired)
  {
    if !Filled(form.name) then Some(NameRequired)
    else if !PositiveInt(form.age) then Some(AgeRequired)
    else if !Filled(form.state) then Some(StateRequired)
    else if !Filled(form.city) then Some(CityRequired)
    else if !PositiveReal(form.weight) then Some(WeightRequired)
    else None
  }

  /** `p.status || "ativo"`, `p.notes || ""`: the view of an owned `patients` row. */
  function OwnedView(row: PatientRow): (p: Patient)
    ensures WellFormed(p) && !p.isShared
    ensures p.id == row.id && p.doctorId == row.doctorId && p.createdAt == row.createdAt
    ensures p.name == row.name && p.age == row.age && p.city == row.city && p.state == row.state && p.weight == row.weight
    ensures p.status != ""
    ensures Truthy(row.status) ==> p.status == row.status.value
    ensures !Truthy(row.status) ==> p.status == ActiveStatus
    ensures Truthy(row.notes) ==> p.notes == row.notes.value
    ensures !Truthy(row.notes) ==> p.notes == ""
  {
    Patient(row.id, row.name, row.age, row.city, row.state, row.weight,
            OrElse(row.status, ActiveStatus), OrElse(row.notes, ""), row.createdAt, row.doctorId, false, None)
  }

  /** The row `createPatient` inserts: trimmed name, city and state, trimmed notes or "",
      status "ativo", owned by the current user. */
  function NewPatientRow(user: CurrentUser, form: PatientForm, freshId: string, now: string): (row: PatientRow)
    requires Valid(form)
    ensures row.name != "" && Unpadded(row.name)
    ensures row.city != "" && Unpadded(row.city)
    ensures row.state != "" && Unpadded(row.state)
    ensures row.name == Trim(form.name.value) && row.city == Trim(form.city.value) && row.state == Trim(form.state.value)
    ensures row.status == Some(ActiveStatus) && row.createdAt == Some(now) && row.doctorId == Some(user.id)
    ensures row.id == freshId && row.age == form.age && row.weight == form.weight
    ensures row.notes == Some(if Truthy(form.notes) then Trim(form.notes.value) else "")
  {
    PatientRow(
      freshId,
      Trim(form.name.value),
      form.age,
      Trim(form.city.value),
      Trim(form.state.value),
      form.weight,
      Some(ActiveStatus),
      Some(if Truthy(form.notes) then Trim(form.notes.value) else ""),
      Some(now),
      Some(user.id))
  }

  /** `createPatient(data)`: fails when the backend is not configured, when no user is
      logged in, with the first failed check, or when the insert fails; otherwise
      returns the normalised new patient. */
  function CreatePatient(configured: bool, user: Option<CurrentUser>, form: PatientForm,
                         freshId: string, now: string, insert: Write): (r: Reply<Patient>)
    ensures r.Value? <==> configured && user.Some? && Valid(form) && insert.Written?
    ensures !configured ==> r == Thrown(NotConfigured)
    ensures configured && user.None? ==> r == Thrown(NotAuthenticated)
    ensures configured && user.Some? && !Valid(form) ==> r == Thrown(Validate(form).value)
    ensures configured && user.Some? && Valid(form) && insert.WriteError? ==>
      r == Thrown("Erro ao criar paciente: " + insert.error.message)
    ensures r.Value? ==> r.value == OwnedView(NewPatientRow(user.value, form, freshId, now))
    ensures r.Value? ==>
      var p := r.value;
      && WellFormed(p) && !p.isShared
      && p.id == freshId && p.createdAt == Some(now)
      && p.name == Trim(form.name.value) && p.name != "" && Unpadded(p.name)
      && p.city == Trim(form.city.value) && p.city != "" && Unpadded(p.city)
      && p.state == Trim(form.state.value) && p.state != "" && Unpadded(p.state)
      && p.age == form.age && p.weight == form.weight
      && p.notes == (if Truthy(form.notes) then Trim(form.notes.value) else "")
      && p.status == ActiveStatus
      && p.doctorId == Some(user.value.id)
  {
    if !configured then Thrown(NotConfigured)
    else if user.None? then Thrown(NotAuthenticated)
    else match Validate(form)
      case Some(message) => Thrown(message)
      case None =>
        match insert
        case WriteError(e) => Thrown("Erro ao criar paciente: " + e.message)
        case Written => Value(OwnedView(NewPatientRow(user.value, form, freshId, now)))
  }

  /** The form a created patient would be submitted with again. */
  function FormOf(p: Patient): PatientForm {
    PatientForm(Some(p.name), p.age, Some(p.city), Some(p.state), p.weight, Some(p.notes))
  }

  /** A created patient is a fixed point of creation: its own fields pass every check,
      and submitting them again (with the same id and time) yields the same patient. */
  lemma CreateIsNormalised(user: CurrentUser, form: PatientForm, freshId: string, now: string)
    requires CreatePatient(true, Some(user), form, freshId, now, Written).Value?
    ensures var p := CreatePatient(true, Some(user), form, freshId, now, Written).value;
            Valid(FormOf(p)) && CreatePatient(true, Some(user), FormOf(p), freshId, now, Written) == Value(p)
  {
    var p := CreatePatient(true, Some(user), form, freshId, now, Written).value;
    var again := FormOf(p);
    TrimUnpadded(p.name);
    TrimUnpadded(p.city);
    TrimUnpadded(p.state);
    assert Valid(again);
    assert (if Truthy(again.notes) then Trim(again.notes.value) else "") == p.notes by {
      if Truthy(form.notes) {
        TrimIdempotent(form.notes.value);
      }
    }
    assert NewPatientRow(user, again, freshId, now) == NewPatientRow(user, form, freshId, now);
  }

  /** A name that is only whitespace is refused before anything else is looked at. */
  lemma BlankNameRefused(user: CurrentUser, form: PatientForm, freshId: string, now: string, insert: Write)
    requires form.name.Some? && AllSpace(form.name.value)
    ensures CreatePatient(true, Some(user), form, freshId, now, insert) == Thrown(NameRequired)
  {
    TrimBlank(form.name.value);
  }

  /** The patient shown for the `k`-th share row (counting from 0) by `getPatients`. */
  function ShareView(share: ShareRow, k: nat, now: string): (p: Patient)
    ensures WellFormed(p) && p.isShared
    ensures p.id == share.patientId && p.sharedId == Some(share.id)
  {
    Patient(
      share.patientId,
      "Paciente Compartilhado " + DecimalString(k + 1),
      Some(30 + k),
      "Cidade",
      "Estado",
      Some(70.0),
      SharedStatus,
      "Compartilhado em " + (if share.sharedAt.Some? then share.sharedAt.value else "null"),
      Some(OrElse(share.sharedAt, now)),
      None,
      true,
      Some(share.id))
  }

  /** The hard-coded shared patient `getPatients` answers with when it has nothing real
      to show. */
  function TestPatient(now: string): (p: Patient)
    ensures WellFormed(p) && p.isShared
  {
    Patient(
      "teste-compartilhado-123",
      "PACIENTE COMPARTILHADO TESTE",
      Some(35),
      "São Paulo",
      "SP",
      Some(70.0),
      SharedStatus,
      "Este é um paciente de teste para verificar se aparece",
      Some(now),
      None,
      true,
      Some("share-123"))
  }

  /** `getPatients()`: no logged-in user gives an empty first page; no backend, a failed
      share query or no share rows give the test patient alone; otherwise one shared
      patient per share row of the current doctor, in row order. */
  function GetPatients(user: Option<CurrentUser>, configured: bool, shares: Query<seq<ShareRow>>, now: string): (r: Listing)
    ensures user.None? ==> r == Listing([], Pagination(1, 1, 0, 10))
    ensures user.Some? && configured && shares.Rows? && |shares.rows| > 0 ==>
      && |r.patients| == |shares.rows|
      && r.pagination == Pagination(1, 1, |shares.rows|, |shares.rows|)
      && (forall k :: 0 <= k < |shares.rows| ==> r.patients[k] == ShareView(shares.rows[k], k, now))
      && forall k :: 0 <= k < |shares.rows| ==>
           && r.patients[k].id == shares.rows[k].patientId
           && r.patients[k].sharedId == Some(shares.rows[k].id)
           && r.patients[k].doctorId.None? && r.patients[k].isShared
    ensures user.Some? && !(configured && shares.Rows? && |shares.rows| > 0) ==>
      r == Listing([TestPatient(now)], Pagination(1, 1, 1, 10))
    ensures forall p :: p in r.patients ==> WellFormed(p) && p.isShared
  {
    var test := Listing([TestPatient(now)], Pagination(1, 1, 1, 10));
    if user.None? then Listing([], Pagination(1, 1, 0, 10))
    else if !configured then test
    else match shares
      case QueryError(_) => test
      case Rows(rows) =>
        if |rows| == 0 then test
        else
          var patients := seq(|rows|, k requires 0 <= k < |rows| => ShareView(rows[k], k, now));
          Listing(patients, Pagination(1, 1, |patients|, |patients|))
  }

  /** The patients `getPatients` builds from share rows have pairwise distinct names. */
  lemma SharedNamesDistinct(user: CurrentUser, shares: seq<ShareRow>, now: string, i: nat, j: nat)
    requires |shares| > 0 && i < j < |shares|
    ensures var r := GetPatients(Some(user), true, Rows(shares), now);
            r.patients[i].name != r.patients[j].name
  {
    var r := GetPatients(Some(user), true, Rows(shares), now);
    var prefix := "Paciente Compartilhado ";
    assert r.patients[i].name == prefix + DecimalString(i + 1);
    assert r.patients[j].name == prefix + DecimalString(j + 1);
    if r.patients[i].name == r.patients[j].name {
      SamePrefixSameRest(prefix, DecimalString(i + 1), DecimalString(j + 1));
      DecimalInjective(i + 1, j + 1);
    }
  }

  /** Strings that agree after dropping a common prefix agree. */
  lemma SamePrefixSameRest(prefix: string, a: string, b: string)
    requires prefix + a == prefix + b
    ensures a == b
  {
    assert a == (prefix + a)[|prefix|..];
    assert b == (prefix + b)[|prefix|..];
  }

  /** In the merge, a share becomes a patient only when its user row was found and
      belongs to a patient. */
  predicate IsPatientShare(users: map<string, UserRow>, share: ShareRow) {
    share.patientId in users && users[share.patientId].profession == Some(PatientProfession)
  }

  /** The merge's view of a shared patient: name, else email, else "Paciente
      Compartilhado"; no city, state, age or weight. */
  function SharedView(share: ShareRow, u: UserRow): (p: Patient)
    ensures WellFormed(p) && p.isShared && p.doctorId.None?
    ensures p.id == share.patientId && p.sharedId == Some(share.id) && p.createdAt == share.sharedAt
    ensures p.name != ""
    ensures Truthy(u.name) ==> p.name == u.name.value
    ensures !Truthy(u.name) && Truthy(u.email) ==> p.name == u.email.value
    ensures !Truthy(u.name) && !Truthy(u.email) ==> p.name == "Paciente Compartilhado"
    ensures p.city == "N/A" && p.state == "N/A" && p.age.None? && p.weight.None?
  {
    Patient(
      share.patientId,
      OrElse(Or(u.name, u.email), "Paciente Compartilhado"),
      None,
      "N/A",
      "N/A",
      None,
      SharedStatus,
      "",
      share.sharedAt,
      None,
      true,
      Some(share.id))
  }

  /** The shares the merge keeps: those whose user is a patient, in row order. */
  function PatientShares(shares: seq<ShareRow>, users: map<string, UserRow>): (kept: seq<ShareRow>)
    ensures IsSubsequence(kept, shares) && |kept| <= |shares|
    ensures forall k :: 0 <= k < |kept| ==> IsPatientShare(users, kept[k])
    ensures forall s :: s in shares && IsPatientShare(users, s) ==> s in kept
    ensures forall s :: multiset(kept)[s] == if IsPatientShare(users, s) then multiset(shares)[s] else 0
  {
    var kept := Filter(shares, s => IsPatientShare(users, s));
    assert forall s :: s in shares && IsPatientShare(users, s) ==> s in kept by {
      forall s | s in shares && IsPatientShare(users, s) ensures s in kept {
        FilterKeeps(shares, s => IsPatientShare(users, s), s);
      }
    }
    assert forall k :: 0 <= k < |kept| ==> kept[k] in kept;
    kept
  }

  function OwnedViews(rows: seq<PatientRow>): (r: seq<Patient>)
    ensures |r| == |rows|
    ensures forall k :: 0 <= k < |rows| ==> r[k] == OwnedView(rows[k])
    ensures forall k :: 0 <= k < |r| ==> WellFormed(r[k]) && !r[k].isShared
  {
    seq(|rows|, k requires 0 <= k < |rows| => OwnedView(rows[k]))
  }

  function SharedViews(kept: seq<ShareRow>, users: map<string, UserRow>): (r: seq<Patient>)
    requires forall k :: 0 <= k < |kept| ==> IsPatientShare(users, kept[k])
    ensures |r| == |kept|
    ensures forall k :: 0 <= k < |kept| ==> kept[k].patientId in users && r[k] == SharedView(kept[k], users[kept[k].patientId])
    ensures forall k :: 0 <= k < |r| ==> WellFormed(r[k]) && r[k].isShared
  {
    seq(|kept|, k requires 0 <= k < |kept| && IsPatientShare(users, kept[k]) => SharedView(kept[k], users[kept[k].patientId]))
  }

  /** Owned patients followed by shared ones: the flag tells the two parts apart. */
  lemma OwnedThenShared(owned: seq<Patient>, shared: seq<Patient>)
    requires forall k :: 0 <= k < |owned| ==> WellFormed(owned[k]) && !owned[k].isShared
    requires forall k :: 0 <= k < |shared| ==> WellFormed(shared[k]) && shared[k].isShared
    ensures forall k :: 0 <= k < |owned + shared| ==>
      WellFormed((owned + shared)[k]) && ((owned + shared)[k].isShared <==> k >= |owned|)
  {
    forall k | 0 <= k < |owned + shared|
      ensures WellFormed((owned + shared)[k]) && ((owned + shared)[k].isShared <==> k >= |owned|)
    {
      if k < |owned| {
        assert (owned + shared)[k] == owned[k];
      } else {
        assert (owned + shared)[k] == shared[k - |owned|];
      }
    }
  }

  /** The merge: the doctor's own patients (none when their query failed), then the shared
      ones (none when the share query failed), with a single page holding them all. */
  function MergeListing(own: Query<seq<PatientRow>>, shares: Query<seq<ShareRow>>, users: map<string, UserRow>): (r: Listing)
    ensures var owned := if own.Rows? then own.rows else [];
            var kept := if shares.Rows? then PatientShares(shares.rows, users) else [];
            && r.patients == OwnedViews(owned) + SharedViews(kept, users)
            && (forall k :: 0 <= k < |r.patients| ==> (r.patients[k].isShared <==> k >= |owned|))
    ensures r.pagination == Pagination(1, 1, |r.patients|, |r.patients|)
    ensures forall k :: 0 <= k < |r.patients| ==> WellFormed(r.patients[k])
  {
    var owned := if own.Rows? then own.rows else [];
    var kept := if shares.Rows? then PatientShares(shares.rows, users) else [];
    var ownedViews := OwnedViews(owned);
    var sharedViews := SharedViews(kept, users);
    var patients := ownedViews + sharedViews;
    OwnedThenShared(ownedViews, sharedViews);
    Listing(patients, Pagination(1, 1, |patients|, |patients|))
  }

  /** A share whose user is not a patient (or was not found) contributes nothing: the
      merged list is no longer than the own rows plus the share rows, and as long when
      every share is a patient's. */
  lemma MergeSize(own: seq<PatientRow>, shares: seq<ShareRow>, users: map<string, UserRow>)
    ensures |MergeListing(Rows(own), Rows(shares), users).patients| <= |own| + |shares|
    ensures (forall s :: s in shares ==> IsPatientShare(users, s)) ==>
      |MergeListing(Rows(own), Rows(shares), users).patients| == |own| + |shares|
  {
    if forall s :: s in shares ==> IsPatientShare(users, s) {
      FilterAll(shares, s => IsPatientShare(users, s));
    }
  }

  /** `getPatientById(id)`: the owned view of the row; `null` when the backend is not
      configured, when no row matched (code PGRST116) or on a network failure; any other
      error is thrown with its message. */
  function GetPatientById(configured: bool, result: Query<PatientRow>): (r: Reply<Option<Patient>>)
    ensures r.Thrown? <==>
      configured && result.QueryError? && result.error.code != "PGRST116"
      && !Contains(result.error.message, "Failed to fetch") && !Contains(result.error.message, "NetworkError")
    ensures r.Thrown? ==> r.message == "Erro ao buscar paciente: " + result.error.message
    ensures r == Value(None) <==> !configured || (result.QueryError? && !r.Thrown?)
    ensures configured && result.Rows? ==> r == Value(Some(OwnedView(result.rows)))
  {
    if !configured then Value(None)
    else match result
      case Rows(row) => Value(Some(OwnedView(row)))
      case QueryError(e) =>
        if e.code == "PGRST116" then Value(None)
        else if Contains(e.message, "Failed to fetch") || Contains(e.message, "NetworkError") then Value(None)
        else Thrown("Erro ao buscar paciente: " + e.message)
  }

  /** Round trip: reading back the row `createPatient` inserted gives the patient it returned. */
  lemma CreateThenGetById(user: CurrentUser, form: PatientForm, freshId: string, now: string)
    requires Valid(form)
    ensures var created := CreatePatient(true, Some(user), form, freshId, now, Written);
            created.Value? &&
            GetPatientById(true, Rows(NewPatientRow(user, form, freshId, now))) == Value(Some(created.value))
  {
  }
}

=== FILE: profiles.dfy ===
/** A patient's personal and medical data: one record per user in a locally stored
    list, written through an upsert, and read either from the backend (when remote
    profiles are enabled) or from the local list. Both kinds of record follow the
    same rules, so the store operations are written once, over the record's fields. */
module Profiles {
  import opened Common

  /** One field of a submitted form, as the object spread `{...record, ...form}` sees
      it: a key the form does not carry keeps the record's value, a key it carries
      overwrites it (even with `undefined`). */
  datatype Patch<T> = Keep | Put(value: T)

  function Overlay<T>(current: T, p: Patch<T>): T {
    match p
    case Keep => current
    case Put(v) => v
  }

  /** The fields of `PatientPersonalData` besides its id, owner and timestamps. */
  datatype PersonalFields = PersonalFields(
    fullName: Option<string>,
    birthDate: Option<string>,
    gender: Option<string>,
    state: Option<string>,
    city: Option<string>,
    healthPlan: Option<string>,
    profileImage: Option<string>)

  /** A submitted personal-data form. */
  datatype PersonalForm = PersonalForm(
    fullName: Patch<Option<string>>,
    birthDate: Patch<Option<string>>,
    gender: Patch<Option<string>>,
    state: Patch<Option<string>>,
    city: Patch<Option<string>>,
    healthPlan: Patch<Option<string>>,
    profileImage: Patch<Option<string>>)

  /** The fields of a record created from nothing: every key not in the form is `undefined`. */
  const NoPersonalFields := PersonalFields(None, None, None, None, None, None, None)

  function ApplyPersonal(f: PersonalFields, form: PersonalForm): PersonalFields {
    PersonalFields(
      Overlay(f.fullName, form.fullName),
      Overlay(f.birthDate, form.birthDate),
      Overlay(f.gender, form.gender),
      Overlay(f.state, form.state),
      Overlay(f.city, form.city),
      Overlay(f.healthPlan, form.healthPlan),
      Overlay(f.profileImage, form.profileImage))
  }

  /** Spreading the same personal form twice over the fields is spreading it once. */
  lemma ApplyPersonalIdempotent(f: PersonalFields, form: PersonalForm)
    ensures ApplyPersonal(ApplyPersonal(f, form), form) == ApplyPersonal(f, form)
  {
  }

  /** The fields of `PatientMedicalData` besides its id, owner and timestamps
      (numbers are exact; the model only copies them). */
  datatype MedicalFields = MedicalFields(
    height: Option<real>,
    weight: Option<real>,
    smoker: Option<bool>,
    highBloodPressure: Option<bool>,
    physicalActivity: Option<bool>,
    exerciseFrequency: Option<string>,
    healthyDiet: Option<bool>)

  /** A submitted medical-data form. */
  datatype MedicalForm = MedicalForm(
    height: Patch<Option<real>>,
    weight: Patch<Option<real>>,
    smoker: Patch<Option<bool>>,
    highBloodPressure: Patch<Option<bool>>,
    physicalActivity: Patch<Option<bool>>,
    exerciseFrequency: Patch<Option<string>>,
    healthyDiet: Patch<Option<bool>>)

  const NoMedicalFields := MedicalFields(None, None, None, None, None, None, None)

  function ApplyMedical(f: MedicalFields, form: MedicalForm): MedicalFields {
    MedicalFields(
      Overlay(f.height, form.height),
      Overlay(f.weight, form.weight),
      Overlay(f.smoker, form.smoker),
      Overlay(f.highBloodPressure, form.highBloodPressure),
      Overlay(f.physicalActivity, form.physicalActivity),
      Overlay(f.exerciseFrequency, form.exerciseFrequency),
      Overlay(f.healthyDiet, form.healthyDiet))
  }

  /** A stored record: personal or medical data of the user `userId`. */
  datatype Profile<F> = Profile(id: string, userId: string, fields: F, createdAt: string, updatedAt: string)

  /** The result of a save: the record returned to the caller and the local list afterwards. */
  datatype Saved<F> = Saved(record: Profile<F>, store: seq<Profile<F>>)

  /** The outcome of the backend's single-row read (`maybeSingle`). */
  datatype Fetch<R> = Found(row: R) | Missing | FetchError(error: DbError)

  /** No two records of the list belong to the same user. */
  ghost predicate UniqueUsers<F>(store: seq<Profile<F>>) {
    forall i, j :: 0 <= i < j < |store| ==> store[i].userId != store[j].userId
  }

  function FindFrom<F>(store: seq<Profile<F>>, userId: string, from: nat): (r: Option<nat>)
    requires from <= |store|
    ensures r.Some? ==> from <= r.value < |store| && store[r.value].userId == userId
    ensures r.Some? ==> forall k :: from <= k < r.value ==> store[k].userId != userId
    ensures r.None? ==> forall k :: from <= k < |store| ==> store[k].userId != userId
    decreases |store| - from
  {
    if from == |store| then None
    else if store[from].userId == userId then Some(from)
    else FindFrom(store, userId, from + 1)
  }

  /** `allData.findIndex(item => item.userId === userId)`, with `-1` as None. */
  function FindIndex<F>(store: seq<Profile<F>>, userId: string): (r: Option<nat>)
    ensures r.Some? ==> r.value < |store| && store[r.value].userId == userId
    ensures r.Some? ==> forall k :: 0 <= k < r.value ==> store[k].userId != userId
    ensures r.None? ==> forall k :: 0 <= k < |store| ==> store[k].userId != userId
  {
    FindFrom(store, userId, 0)
  }

  /** `data.find(item => item.userId === userId) || null`: the first local record of the user. */
  function LocalFind<F>(store: seq<Profile<F>>, userId: string): (r: Option<Profile<F>>)
    ensures r.Some? ==> r.value in store && r.value.userId == userId
    ensures r.Some? ==> exists k :: 0 <= k < |store| && store[k] == r.value && forall j :: 0 <= j < k ==> store[j].userId != userId
    ensures r.None? <==> forall k :: 0 <= k < |store| ==> store[k].userId != userId
  {
    match FindIndex(store, userId)
    case Some(k) => Some(store[k])
    case None => None
  }

  /** The local upsert of a save: the user's existing record is replaced at its own
      position by the record overlaid with the form and stamped `now`; otherwise a new
      record with the fresh id is appended. */
  function Upsert<F, P>(store: seq<Profile<F>>, userId: string, form: P, apply: (F, P) -> F, blank: F,
                        freshId: string, now: string): (r: Saved<F>)
    ensures r.record.userId == userId && r.record.updatedAt == now
    ensures FindIndex(store, userId).Some? ==>
      var k := FindIndex(store, userId).value;
      && |r.store| == |store|
      && r.store[k] == r.record
      && r.record.fields == apply(store[k].fields, form)
      && r.record.id == store[k].id && r.record.createdAt == store[k].createdAt
      && forall j :: 0 <= j < |store| && j != k ==> r.store[j] == store[j]
    ensures FindIndex(store, userId).None? ==>
      r.store == store + [r.record] && r.record == Profile(freshId, userId, apply(blank, form), now, now)
  {
    match FindIndex(store, userId)
    case Some(k) =>
      var record := store[k].(fields := apply(store[k].fields, form), updatedAt := now);
      Saved(record, store[k := record])
    case None =>
      var record := Profile(freshId, userId, apply(blank, form), now, now);
      Saved(record, store + [record])
  }

  /** `savePatientPersonalData` / `savePatientMedicalData`: the record is computed from
      the local list; when remote profiles are enabled and the backend write succeeds it
      is returned and the local list is left alone; when they are disabled or the
      write fails, the upsert is written to the local list. */
  function Save<F, P>(store: seq<Profile<F>>, userId: string, form: P, apply: (F, P) -> F, blank: F,
                      remoteProfiles: bool, remote: Write, freshId: string, now: string): (r: Saved<F>)
    ensures r.record == Upsert(store, userId, form, apply, blank, freshId, now).record
    ensures remoteProfiles && remote.Written? ==> r.store == store
    ensures !(remoteProfiles && remote.Written?) ==> r.store == Upsert(store, userId, form, apply, blank, freshId, now).store
  {
    var upserted := Upsert(store, userId, form, apply, blank, freshId, now);
    if remoteProfiles && remote.Written? then Saved(upserted.record, store) else upserted
  }

  /** `getPatientPersonalData` / `getPatientMedicalData`: with remote profiles enabled,
      a found row is returned (after `convert`), a missing row is `null`, and only a
      backend error falls back to the local list; with them disabled, the local list
      answers. */
  function Lookup<F>(store: seq<Profile<F>>, userId: string, remoteProfiles: bool, remote: Fetch<Profile<F>>,
                     convert: Profile<F> -> Profile<F>): (r: Option<Profile<F>>)
    ensures remoteProfiles && remote.Found? ==> r == Some(convert(remote.row))
    ensures remoteProfiles && remote.Missing? ==> r.None?
    ensures !remoteProfiles || remote.FetchError? ==> r == LocalFind(store, userId)
  {
    if remoteProfiles then
      match remote
      case Found(row) => Some(convert(row))
      case Missing => None
      case FetchError(_) => LocalFind(store, userId)
    else LocalFind(store, userId)
  }

  /** The upsert keeps "at most one record per user". */
  lemma UpsertKeepsUnique<F, P>(store: seq<Profile<F>>, userId: string, form: P, apply: (F, P) -> F, blank: F,
                                freshId: string, now: string)
    requires UniqueUsers(store)
    ensures UniqueUsers(Upsert(store, userId, form, apply, blank, freshId, now).store)
  {
    var r := Upsert(store, userId, form, apply, blank, freshId, now);
    if FindIndex(store, userId).None? {
      forall i, j | 0 <= i < j < |r.store| ensures r.store[i].userId != r.store[j].userId {
        if j == |store| {
          assert r.store[i] == store[i];
        } else {
          assert r.store[i] == store[i] && r.store[j] == store[j];
        }
      }
    }
  }

  /** Reading back after a local save finds the saved record. */
  lemma {:induction false} UpsertThenFind<F, P>(store: seq<Profile<F>>, userId: string, form: P, apply: (F, P) -> F,
                                               blank: F, freshId: string, now: string)
    ensures var r := Upsert(store, userId, form, apply, blank, freshId, now);
            LocalFind(r.store, userId) == Some(r.record)
  {
    var r := Upsert(store, userId, form, apply, blank, freshId, now);
    match FindIndex(store, userId)
    case Some(k) =>
      assert forall j :: 0 <= j < k ==> r.store[j] == store[j];
      assert r.store[k].userId == userId;
    case None =>
      assert forall j :: 0 <= j < |store| ==> r.store[j] == store[j];
      assert r.store[|store|].userId == userId;
  }

  /** A save for one user leaves every other user's local record as it was. */
  lemma UpsertOtherUser<F, P>(store: seq<Profile<F>>, userId: string, form: P, apply: (F, P) -> F, blank: F,
                              freshId: string, now: string, other: string)
    requires other != userId
    ensures LocalFind(Upsert(store, userId, form, apply, blank, freshId, now).store, other) == LocalFind(store, other)
  {
    var r := Upsert(store, userId, form, apply, blank, freshId, now);
    var a := FindIndex(r.store, other);
    var b := FindIndex(store, other);
    if a.Some? {
      assert a.value < |store| && r.store[a.value] == store[a.value];
    }
    if b.Some? {
      assert r.store[b.value] == store[b.value];
    }
  }

  /** `savePatientPersonalData`. */
  function SavePersonalData(store: seq<Profile<PersonalFields>>, userId: string, form: PersonalForm,
                            remoteProfiles: bool, remote: Write, freshId: string, now: string): Saved<PersonalFields>
  {
    Save(store, userId, form, ApplyPersonal, NoPersonalFields, remoteProfiles, remote, freshId, now)
  }

  /** `savePatientMedicalData`. */
  function SaveMedicalData(store: seq<Profile<MedicalFields>>, userId: string, form: MedicalForm,
                           remoteProfiles: bool, remote: Write, freshId: string, now: string): Saved<MedicalFields>
  {
    Save(store, userId, form, ApplyMedical, NoMedicalFields, remoteProfiles, remote, freshId, now)
  }

  /** `getPatientPersonalData`: the backend row is renamed field by field, nothing else. */
  function GetPersonalData(store: seq<Profile<PersonalFields>>, userId: string, remoteProfiles: bool,
                           remote: Fetch<Profile<PersonalFields>>): Option<Profile<PersonalFields>>
  {
    Lookup(store, userId, remoteProfiles, remote, row => row)
  }

  /** The conversion of a backend medical row: a falsy weight becomes `undefined`, and
      each yes/no answer becomes `false` unless it is `true` (`x || false`). */
  function MedicalFromRow(row: Profile<MedicalFields>): (r: Profile<MedicalFields>)
    ensures r.id == row.id && r.userId == row.userId && r.createdAt == row.createdAt && r.updatedAt == row.updatedAt
    ensures r.fields.height == row.fields.height && r.fields.exerciseFrequency == row.fields.exerciseFrequency
    ensures r.fields.weight != Some(0.0)
    ensures r.fields.weight.Some? ==> r.fields.weight == row.fields.weight
    ensures r.fields.smoker.Some? && r.fields.highBloodPressure.Some?
    ensures r.fields.physicalActivity.Some? && r.fields.healthyDiet.Some?
    ensures r.fields.smoker.value <==> row.fields.smoker == Some(true)
    ensures r.fields.highBloodPressure.value <==> row.fields.highBloodPressure == Some(true)
    ensures r.fields.physicalActivity.value <==> row.fields.physicalActivity == Some(true)
    ensures r.fields.healthyDiet.value <==> row.fields.healthyDiet == Some(true)
    ensures row.fields.weight.Some? && row.fields.weight.value != 0.0 ==> r.fields.weight == row.fields.weight
  {
    var f := row.fields;
    row.(fields := f.(
      weight := if f.weight.Some? && f.weight.value != 0.0 then f.weight else None,
      smoker := Some(f.smoker == Some(true)),
      highBloodPressure := Some(f.highBloodPressure == Some(true)),
      physicalActivity := Some(f.physicalActivity == Some(true)),
      healthyDiet := Some(f.healthyDiet == Some(true))))
  }

  /** `getPatientMedicalData`. */
  function GetMedicalData(store: seq<Profile<MedicalFields>>, userId: string, remoteProfiles: bool,
                          remote: Fetch<Profile<MedicalFields>>): Option<Profile<MedicalFields>>
  {
    Lookup(store, userId, remoteProfiles, remote, MedicalFromRow)
  }

  /** Round trip of the local path: when remote profiles are disabled, reading the
      personal data right after saving it returns the saved record. */
  lemma PersonalSaveThenGet(store: seq<Profile<PersonalFields>>, userId: string, form: PersonalForm, remote: Write,
                            freshId: string, now: string, fetched: Fetch<Profile<PersonalFields>>)
    ensures var saved := SavePersonalData(store, userId, form, false, remote, freshId, now);
            GetPersonalData(saved.store, userId, false, fetched) == Some(saved.record)
  {
    UpsertThenFind(store, userId, form, ApplyPersonal, NoPersonalFields, freshId, now);
  }

  /** The same holds for medical data. */
  lemma MedicalSaveThenGet(store: seq<Profile<MedicalFields>>, userId: string, form: MedicalForm, remote: Write,
                           freshId: string, now: string, fetched: Fetch<Profile<MedicalFields>>)
    ensures var saved := SaveMedicalData(store, userId, form, false, remote, freshId, now);
            GetMedicalData(saved.store, userId, false, fetched) == Some(saved.record)
  {
    UpsertThenFind(store, userId, form, ApplyMedical, NoMedicalFields, freshId, now);
  }

  /** Saving the same personal form twice is saving it once: the second save finds the
      record of the first, keeps its id, creation time and position, and changes no field. */
  lemma PersonalSaveTwice(store: seq<Profile<PersonalFields>>, userId: string, form: PersonalForm,
                          id1: string, now1: string, id2: string, now2: string)
    ensures var first := SavePersonalData(store, userId, form, false, Written, id1, now1);
            var second := SavePersonalData(first.store, userId, form, false, Written, id2, now2);
            && |second.store| == |first.store|
            && second.record.id == first.record.id
            && second.record.createdAt == first.record.createdAt
            && second.record.fields == first.record.fields
  {
    var first := SavePersonalData(store, userId, form, false, Written, id1, now1);
    UpsertThenFind(store, userId, form, ApplyPersonal, NoPersonalFields, id1, now1);
    var k := FindIndex(first.store, userId).value;
    assert first.store[k] == first.record;
    var before := match FindIndex(store, userId)
      case Some(i) => store[i].fields
      case None => NoPersonalFields;
    assert first.record.fields == ApplyPersonal(before, form);
    ApplyPersonalIdempotent(before, form);
  }

  /** With remote profiles on, an accepted save leaves no local record behind. So saving
      the same form again for a user with no local record inserts anew: the second
      record takes the second fresh id and creation time. */
  lemma RemoteSaveTwiceInsertsAgain(store: seq<Profile<PersonalFields>>, userId: string, form: PersonalForm,
                                    id1: string, now1: string, id2: string, now2: string)
    requires LocalFind(store, userId).None?
    ensures var first := SavePersonalData(store, userId, form, true, Written, id1, now1);
            var second := SavePersonalData(first.store, userId, form, true, Written, id2, now2);
            && first.store == store && second.store == store
            && first.record.id == id1 && first.record.createdAt == now1
            && second.record.id == id2 && second.record.createdAt == now2
            && second.record.fields == first.record.fields
  {
  }

  /** A save the backend accepted does not reach the local list: a later local read sees
      what was there before. */
  lemma RemoteSaveLeavesLocal(store: seq<Profile<PersonalFields>>, userId: string, form: PersonalForm,
                              freshId: string, now: string)
    ensures GetPersonalData(SavePersonalData(store, userId, form, true, Written, freshId, now).store, userId, false, Missing)
         == LocalFind(store, userId)
  {
  }
}

=== FILE: sharing.dfy ===
/** The locally stored sharing grants (`SharedData` records) between a patient and
    the doctors allowed to see the patient's data. The store is a list that only
    grows: granting appends a record or returns the active one, revoking flips
    `isActive` off on every record of the pair, and nothing is ever removed. */
module Sharing {
  import opened Common

  /** One sharing grant. `id` and `sharedAt` come from the id generator and the clock. */
  datatype SharedData = SharedData(id: string, patientId: string, doctorId: string, sharedAt: string, isActive: bool)

  /** The result of a grant: the grant returned to the caller and the store written back. */
  datatype Granted = Granted(grant: SharedData, store: seq<SharedData>)

  predicate IsPair(s: SharedData, patientId: string, doctorId: string) {
    s.patientId == patientId && s.doctorId == doctorId
  }

  predicate ActiveFor(s: SharedData, patientId: string, doctorId: string) {
    IsPair(s, patientId, doctorId) && s.isActive
  }

  /** Some record of the store is an active grant for the pair. */
  ghost predicate HasActive(store: seq<SharedData>, patientId: string, doctorId: string) {
    exists k :: 0 <= k < |store| && ActiveFor(store[k], patientId, doctorId)
  }

  /** The number of active grants for the pair. */
  function ActiveCount(store: seq<SharedData>, patientId: string, doctorId: string): nat
    decreases |store|
  {
    if |store| == 0 then 0
    else ActiveCount(store[..|store| - 1], patientId, doctorId)
         + (if ActiveFor(store[|store| - 1], patientId, doctorId) then 1 else 0)
  }

  /** The first position at or after `from` holding an active grant for the pair. */
  function FindActiveFrom(store: seq<SharedData>, patientId: string, doctorId: string, from: nat): (r: Option<nat>)
    requires from <= |store|
    ensures r.Some? ==> from <= r.value < |store| && ActiveFor(store[r.value], patientId, doctorId)
    ensures r.Some? ==> forall k :: from <= k < r.value ==> !ActiveFor(store[k], patientId, doctorId)
    ensures r.None? ==> forall k :: from <= k < |store| ==> !ActiveFor(store[k], patientId, doctorId)
    decreases |store| - from
  {
    if from == |store| then None
    else if ActiveFor(store[from], patientId, doctorId) then Some(from)
    else FindActiveFrom(store, patientId, doctorId, from + 1)
  }

  /** `allShares.find(...)`: the position of the first active grant for the pair. */
  function FindActive(store: seq<SharedData>, patientId: string, doctorId: string): (r: Option<nat>)
    ensures r.Some? <==> HasActive(store, patientId, doctorId)
    ensures r.Some? ==> r.value < |store| && ActiveFor(store[r.value], patientId, doctorId)
    ensures r.Some? ==> forall k :: 0 <= k < r.value ==> !ActiveFor(store[k], patientId, doctorId)
  {
    FindActiveFrom(store, patientId, doctorId, 0)
  }

  /** `shareDataWithDoctor(patientId, doctorId)`: returns the first active grant for
      the pair when there is one, leaving the store as it is; otherwise appends a new
      active grant with the fresh id and the current time and returns it. */
  function Share(store: seq<SharedData>, patientId: string, doctorId: string, freshId: string, now: string): (r: Granted)
    ensures ActiveFor(r.grant, patientId, doctorId)
    ensures r.grant in r.store
    ensures |store| <= |r.store| <= |store| + 1 && r.store[..|store|] == store
    ensures HasActive(store, patientId, doctorId) <==> r.store == store
    ensures HasActive(store, patientId, doctorId) ==>
      exists k :: 0 <= k < |store| && store[k] == r.grant
        && forall j :: 0 <= j < k ==> !ActiveFor(store[j], patientId, doctorId)
    ensures !HasActive(store, patientId, doctorId) ==>
      r.store == store + [r.grant] && r.grant.id == freshId && r.grant.sharedAt == now
  {
    match FindActive(store, patientId, doctorId)
    case Some(k) => Granted(store[k], store)
    case None =>
      var grant := SharedData(freshId, patientId, doctorId, now, true);
      assert (store + [grant])[..|store|] == store;
      Granted(grant, store + [grant])
  }

  /** `stopSharingWithDoctor(patientId, doctorId)`: every record of the pair becomes
      inactive; the records keep their place and their other fields, and the records
      of other pairs are untouched. */
  function StopSharing(store: seq<SharedData>, patientId: string, doctorId: string): (r: seq<SharedData>)
    ensures |r| == |store|
    ensures forall k :: 0 <= k < |store| && !IsPair(store[k], patientId, doctorId) ==> r[k] == store[k]
    ensures forall k :: 0 <= k < |store| && IsPair(store[k], patientId, doctorId) ==>
      !r[k].isActive && r[k].(isActive := store[k].isActive) == store[k]
    ensures !HasActive(r, patientId, doctorId)
  {
    seq(|store|, k requires 0 <= k < |store| =>
      if IsPair(store[k], patientId, doctorId) then store[k].(isActive := false) else store[k])
  }

  /** The active-grant count of an appended record adds up. */
  lemma ActiveCountAppend(store: seq<SharedData>, s: SharedData, patientId: string, doctorId: string)
    ensures ActiveCount(store + [s], patientId, doctorId)
         == ActiveCount(store, patientId, doctorId) + (if ActiveFor(s, patientId, doctorId) then 1 else 0)
  {
    assert (store + [s])[..|store|] == store;
  }

  /** The count is zero exactly when there is no active grant for the pair. */
  lemma {:induction false} ActiveCountZero(store: seq<SharedData>, patientId: string, doctorId: string)
    ensures ActiveCount(store, patientId, doctorId) == 0 <==> !HasActive(store, patientId, doctorId)
    decreases |store|
  {
    if |store| > 0 {
      var init := store[..|store| - 1];
      ActiveCountZero(init, patientId, doctorId);
      if HasActive(init, patientId, doctorId) {
        var k :| 0 <= k < |init| && ActiveFor(init[k], patientId, doctorId);
        assert store[k] == init[k];
      }
      if HasActive(store, patientId, doctorId) && !ActiveFor(store[|store| - 1], patientId, doctorId) {
        var k :| 0 <= k < |store| && ActiveFor(store[k], patientId, doctorId);
        assert init[k] == store[k];
      }
    }
  }

  /** Granting leaves exactly one active grant for the pair when there was at most one:
      granting keeps the "at most one active grant per pair" invariant and establishes
      that the pair is granted. */
  lemma ShareActiveCount(store: seq<SharedData>, patientId: string, doctorId: string, freshId: string, now: string)
    requires ActiveCount(store, patientId, doctorId) <= 1
    ensures ActiveCount(Share(store, patientId, doctorId, freshId, now).store, patientId, doctorId) == 1
  {
    var r := Share(store, patientId, doctorId, freshId, now);
    ActiveCountZero(store, patientId, doctorId);
    if !HasActive(store, patientId, doctorId) {
      ActiveCountAppend(store, r.grant, patientId, doctorId);
    }
  }

  /** Granting is idempotent: a second grant for the same pair, whatever id and time
      it is given, returns the grant of the first call and writes nothing new. */
  lemma ShareIdempotent(store: seq<SharedData>, patientId: string, doctorId: string,
                        id1: string, now1: string, id2: string, now2: string)
    ensures var first := Share(store, patientId, doctorId, id1, now1);
            Share(first.store, patientId, doctorId, id2, now2) == first
  {
    var first := Share(store, patientId, doctorId, id1, now1);
    var k := FindActive(first.store, patientId, doctorId);
    assert k.Some?;
    if HasActive(store, patientId, doctorId) {
      var j := FindActive(store, patientId, doctorId).value;
      assert k.value == j;
    } else {
      assert k.value == |store|;
    }
  }

  /** Two successive grants for a pair that had no active grant leave exactly one. */
  lemma ShareTwiceOneActive(store: seq<SharedData>, patientId: string, doctorId: string,
                            id1: string, now1: string, id2: string, now2: string)
    requires !HasActive(store, patientId, doctorId)
    ensures var first := Share(store, patientId, doctorId, id1, now1);
            ActiveCount(Share(first.store, patientId, doctorId, id2, now2).store, patientId, doctorId) == 1
  {
    ActiveCountZero(store, patientId, doctorId);
    ShareActiveCount(store, patientId, doctorId, id1, now1);
    ShareIdempotent(store, patientId, doctorId, id1, now1, id2, now2);
  }

  /** Revoking does not hide other pairs: a record is an active grant for another
      pair after the revocation exactly when it was one before. */
  lemma StopSharingOtherPairs(store: seq<SharedData>, patientId: string, doctorId: string,
                              otherPatient: string, otherDoctor: string, k: nat)
    requires k < |store|
    requires otherPatient != patientId || otherDoctor != doctorId
    ensures ActiveFor(StopSharing(store, patientId, doctorId)[k], otherPatient, otherDoctor)
        <==> ActiveFor(store[k], otherPatient, otherDoctor)
  {
  }

  /** A grant after a revocation does not reactivate an old record: it appends a fresh
      active one, and every old record of the pair stays in place, inactive. */
  lemma ShareAfterStopAppends(store: seq<SharedData>, patientId: string, doctorId: string, freshId: string, now: string)
    ensures var stopped := StopSharing(store, patientId, doctorId);
            var r := Share(stopped, patientId, doctorId, freshId, now);
            && r.store == stopped + [SharedData(freshId, patientId, doctorId, now, true)]
            && r.grant == SharedData(freshId, patientId, doctorId, now, true)
            && forall k :: 0 <= k < |store| && IsPair(store[k], patientId, doctorId) ==>
                 !r.store[k].isActive && r.store[k].id == store[k].id && r.store[k].sharedAt == store[k].sharedAt
  {
  }
}

=== FILE: text.dfy ===
/** The JavaScript string operations the API relies on: `trim`, `toLowerCase`,
    `includes`, `split` on one separator character, and the decimal rendering of a
    non-negative integer in a template literal. Strings are sequences of code points. */
module Text {

  /** ECMAScript WhiteSpace and LineTerminator code points: the characters `trim` removes. */
  predicate IsSpace(c: char) {
    || c == '\t' || c == '\n' || c == '\U{000B}' || c == '\U{000C}' || c == '\r' || c == ' '
    || c == '\U{00A0}' || c == '\U{1680}' || ('\U{2000}' <= c <= '\U{200A}')
    || c == '\U{2028}' || c == '\U{2029}' || c == '\U{202F}' || c == '\U{205F}'
    || c == '\U{3000}' || c == '\U{FEFF}'
  }

  predicate AllSpace(s: string) {
    forall i :: 0 <= i < |s| ==> IsSpace(s[i])
  }

  /** Neither end of `s` is a whitespace character. */
  predicate Unpadded(s: string) {
    s == [] || (!IsSpace(s[0]) && !IsSpace(s[|s| - 1]))
  }

  /** Drops the leading whitespace: the result is the longest suffix that does not start with whitespace. */
  function TrimStart(s: string): (r: string)
    ensures |r| <= |s| && r == s[|s| - |r|..]
    ensures AllSpace(s[..|s| - |r|])
    ensures r == [] || !IsSpace(r[0])
    decreases |s|
  {
    if |s| > 0 && IsSpace(s[0]) then
      var r := TrimStart(s[1..]);
      var n := |s| - |r|;
      assert s[1..][n - 1..] == s[n..];
      SpaceThenSpaces(s, n);
      r
    else s
  }

  /** A whitespace character followed by `n - 1` whitespace characters is `n` of them. */
  lemma SpaceThenSpaces(s: string, n: int)
    requires 0 < n <= |s| && IsSpace(s[0]) && AllSpace(s[1..][..n - 1])
    ensures AllSpace(s[..n])
  {
    forall k | 0 <= k < n ensures IsSpace(s[..n][k]) {
      if k > 0 { assert s[..n][k] == s[1..][..n - 1][k - 1]; }
    }
  }

  /** Drops the trailing whitespace: the result is the longest prefix that does not end with whitespace. */
  function TrimEnd(s: string): (r: string)
    ensures |r| <= |s| && r == s[..|r|]
    ensures AllSpace(s[|r|..])
    ensures r == [] || !IsSpace(r[|r| - 1])
    decreases |s|
  {
    if |s| > 0 && IsSpace(s[|s| - 1]) then
      var init := s[..|s| - 1];
      var r := TrimEnd(init);
      assert init[..|r|] == s[..|r|];
      assert AllSpace(s[|r|..]) by {
        forall k | 0 <= k < |s| - |r| ensures IsSpace(s[|r|..][k]) {
          if k < |s| - 1 - |r| { assert s[|r|..][k] == init[|r|..][k]; }
        }
      }
      r
    else s
  }

  /** `r` is the slice of `s` at offset `i` and everything of `s` around it is whitespace. */
  predicate IsTrimOf(s: string, r: string, i: int) {
    0 <= i <= |s| - |r| && s[i..i + |r|] == r && AllSpace(s[..i]) && AllSpace(s[i + |r|..])
  }

  /** A prefix `r` of a suffix `t` of `s`, with only whitespace around, is a trim of `s`. */
  lemma TrimOfTrims(s: string, t: string, r: string)
    requires |t| <= |s| && t == s[|s| - |t|..] && AllSpace(s[..|s| - |t|])
    requires |r| <= |t| && r == t[..|r|] && AllSpace(t[|r|..])
    requires t == [] || !IsSpace(t[0])
    requires r == [] || !IsSpace(r[|r| - 1])
    ensures IsTrimOf(s, r, |s| - |t|)
    ensures Unpadded(r)
  {
    if r != [] { assert r[0] == t[0]; }
    var i := |s| - |t|;
    assert s[i..i + |r|] == r;
    assert s[i + |r|..] == t[|r|..];
  }

  /** `String.prototype.trim`: the slice of `s` between its leading and its trailing whitespace. */
  function Trim(s: string): (r: string)
    ensures Unpadded(r)
    ensures exists i :: IsTrimOf(s, r, i)
  {
    var t := TrimStart(s);
    var r := TrimEnd(t);
    TrimOfTrims(s, t, r);
    r
  }

  /** A string that is blank after trimming is exactly a string of whitespace. */
  lemma TrimBlank(s: string)
    ensures Trim(s) == "" <==> AllSpace(s)
  {
    var r := Trim(s);
    var i :| IsTrimOf(s, r, i);
    if r == "" {
      forall k | 0 <= k < |s| ensures IsSpace(s[k]) {
        if k < i { assert s[k] == s[..i][k]; } else { assert s[k] == s[i..][k - i]; }
      }
    } else {
      assert r[0] == s[i];
    }
  }

  /** Trimming an already unpadded string changes nothing. */
  lemma {:induction false} TrimUnpadded(s: string)
    requires Unpadded(s)
    ensures Trim(s) == s
  {
    if s != [] {
      assert TrimStart(s) == s;
      assert TrimEnd(s) == s;
    }
  }

  /** Leading whitespace in front of a string that starts with a non-space is dropped. */
  lemma {:induction false} TrimStartLead(lead: string, s: string)
    requires AllSpace(lead)
    requires s == [] || !IsSpace(s[0])
    ensures TrimStart(lead + s) == s
    decreases |lead|
  {
    if |lead| > 0 {
      assert (lead + s)[1..] == lead[1..] + s;
      TrimStartLead(lead[1..], s);
    }
  }

  /** Trailing whitespace after a string that ends with a non-space is dropped. */
  lemma {:induction false} TrimEndTrail(s: string, trail: string)
    requires AllSpace(trail)
    requires s == [] || !IsSpace(s[|s| - 1])
    ensures TrimEnd(s + trail) == s
    decreases |trail|
  {
    if |trail| > 0 {
      assert (s + trail)[..|s + trail| - 1] == s + trail[..|trail| - 1];
      TrimEndTrail(s, trail[..|trail| - 1]);
    } else {
      assert s + trail == s;
    }
  }

  /** Trimming whitespace padding around an unpadded, non-empty string gives that string. */
  lemma TrimPadded(lead: string, s: string, trail: string)
    requires AllSpace(lead) && AllSpace(trail) && s != [] && Unpadded(s)
    ensures Trim(lead + s + trail) == s
  {
    assert lead + s + trail == lead + (s + trail);
    TrimStartLead(lead, s + trail);
    TrimEndTrail(s, trail);
  }

  /** `trim` is idempotent. */
  lemma TrimIdempotent(s: string)
    ensures Trim(Trim(s)) == Trim(s)
  {
    TrimUnpadded(Trim(s));
  }

  /** `toLowerCase` on one code point: ASCII and Latin-1 capital letters map to their small letters. */
  function LowerChar(c: char): char {
    if 'A' <= c <= 'Z' || ('\U{00C0}' <= c <= '\U{00DE}' && c != '\U{00D7}') then
      (c as int + 32) as char
    else
      c
  }

  /** `String.prototype.toLowerCase`, character by character. */
  function Lower(s: string): (r: string)
    ensures |r| == |s|
    ensures forall i :: 0 <= i < |s| ==> r[i] == LowerChar(s[i])
  {
    seq(|s|, i requires 0 <= i < |s| => LowerChar(s[i]))
  }

  /** `s` contains `pat` at position `i`. */
  predicate OccursAt(s: string, pat: string, i: int) {
    0 <= i && i + |pat| <= |s| && s[i..i + |pat|] == pat
  }

  /** `String.prototype.includes`: `pat` occurs somewhere in `s`. */
  function Contains(s: string, pat: string): (r: bool)
    ensures r <==> exists i :: OccursAt(s, pat, i)
    decreases |s|
  {
    if |pat| > |s| then
      assert forall i :: !OccursAt(s, pat, i);
      false
    else if s[..|pat|] == pat then
      assert OccursAt(s, pat, 0);
      true
    else
      var r := Contains(s[1..], pat);
      assert forall i :: 0 < i ==> (OccursAt(s, pat, i) <==> OccursAt(s[1..], pat, i - 1)) by {
        forall i | 0 < i
          ensures OccursAt(s, pat, i) <==> OccursAt(s[1..], pat, i - 1)
        {
          if 0 < i && i + |pat| <= |s| {
            assert s[1..][i - 1..i - 1 + |pat|] == s[i..i + |pat|];
          }
        }
      }
      if r then
        var j :| OccursAt(s[1..], pat, j);
        assert OccursAt(s, pat, j + 1);
        r
      else
        r
  }

  /** The first two characters of an occurrence are those of the pattern. */
  lemma OccursAtHead(s: string, pat: string, i: int)
    requires |pat| >= 2 && 0 <= i && i + |pat| <= |s|
    ensures OccursAt(s, pat, i) ==> s[i] == pat[0] && s[i + 1] == pat[1]
  {
    assert s[i..i + |pat|][0] == s[i] && s[i..i + |pat|][1] == s[i + 1];
  }

  /** An occurrence that starts after a prefix is an occurrence in what follows it. */
  lemma OccursAfterPrefix(prefix: string, s: string, pat: string, i: int)
    requires OccursAt(prefix + s, pat, i) && i >= |prefix|
    ensures OccursAt(s, pat, i - |prefix|)
  {
    assert (prefix + s)[i..i + |pat|] == s[i - |prefix|..i - |prefix| + |pat|];
  }

  /** Every string contains the empty string and itself. */
  lemma ContainsTrivial(s: string)
    ensures Contains(s, "")
    ensures Contains(s, s)
  {
    assert OccursAt(s, "", 0);
    assert OccursAt(s, s, 0);
  }

  /** Containment is transitive: a substring of a substring is a substring. */
  lemma ContainsTransitive(a: string, b: string, c: string)
    requires Contains(a, b) && Contains(b, c)
    ensures Contains(a, c)
  {
    var i :| OccursAt(a, b, i);
    var j :| OccursAt(b, c, j);
    forall k | 0 <= k < |c| ensures a[i + j + k] == c[k] {
      assert c[k] == b[j + k];
      assert b[j + k] == a[i + j + k];
    }
    assert a[i + j..i + j + |c|] == c;
    assert OccursAt(a, c, i + j);
  }

  /** A substring of either part of a concatenation is a substring of the whole. */
  lemma ContainsConcat(a: string, b: string, pat: string)
    ensures Contains(a, pat) ==> Contains(a + b, pat)
    ensures Contains(b, pat) ==> Contains(a + b, pat)
  {
    if Contains(a, pat) {
      var i :| OccursAt(a, pat, i);
      assert (a + b)[i..i + |pat|] == a[i..i + |pat|];
      assert OccursAt(a + b, pat, i);
    }
    if Contains(b, pat) {
      var i :| OccursAt(b, pat, i);
      assert (a + b)[|a| + i..|a| + i + |pat|] == b[i..i + |pat|];
      assert OccursAt(a + b, pat, |a| + i);
    }
  }

  /** `words.join(sep)`. */
  function Join(words: seq<string>, sep: char): string
    decreases |words|
  {
    if |words| == 0 then ""
    else if |words| == 1 then words[0]
    else words[0] + [sep] + Join(words[1..], sep)
  }

  /** Joining `[c + w] + rest` is prefixing `c` to the join of `[w] + rest`. */
  lemma JoinConsFirst(c: char, words: seq<string>, sep: char)
    requires |words| >= 1
    ensures Join([[c] + words[0]] + words[1..], sep) == [c] + Join(words, sep)
  {
    var ws := [[c] + words[0]] + words[1..];
    assert ws[1..] == words[1..];
  }

  /** `s.split(sep)`: the maximal separator-free pieces of `s`, in order, including empty ones. */
  function Split(s: string, sep: char): (r: seq<string>)
    ensures |r| >= 1
    ensures Join(r, sep) == s
    ensures forall w :: w in r ==> sep !in w
    decreases |s|
  {
    if |s| == 0 then [""]
    else
      var rest := Split(s[1..], sep);
      assert s == [s[0]] + s[1..];
      if s[0] == sep then
        assert ([""] + rest)[1..] == rest;
        [""] + rest
      else
        JoinConsFirst(s[0], rest, sep);
        [[s[0]] + rest[0]] + rest[1..]
  }

  /** Dropping the first character of the first word keeps every word separator-free. */
  lemma ShorterSepFree(words: seq<string>, sep: char)
    requires |words| >= 1 && |words[0]| > 0
    requires forall w :: w in words ==> sep !in w
    ensures forall v :: v in [words[0][1..]] + words[1..] ==> sep !in v
  {
    var w := words[0];
    forall v | v in [w[1..]] + words[1..] ensures sep !in v {
      if v == w[1..] {
        assert w in words;
        forall k | 0 <= k < |v| ensures v[k] != sep {
          assert v[k] == w[k + 1];
        }
      } else {
        assert v in words[1..];
        var j :| 0 <= j < |words[1..]| && words[1..][j] == v;
        assert words[j + 1] == v;
      }
    }
  }

  /** The step of `SplitJoin` for a non-empty first word: if splitting the join with that
      word's first character removed gives those words back, splitting the full join
      gives the full words back. */
  lemma SplitJoinHeadStep(words: seq<string>, sep: char)
    requires |words| >= 1 && |words[0]| > 0 && words[0][0] != sep
    requires Split(Join([words[0][1..]] + words[1..], sep), sep) == [words[0][1..]] + words[1..]
    ensures Split(Join(words, sep), sep) == words
  {
    var w := words[0];
    var shorter := [w[1..]] + words[1..];
    assert shorter[1..] == words[1..];
    assert w == [w[0]] + w[1..];
    JoinConsFirst(w[0], shorter, sep);
    assert [[w[0]] + shorter[0]] + shorter[1..] == words;
    var s := Join(words, sep);
    assert s[1..] == Join(shorter, sep);
  }

  /** The step of `SplitJoin` for an empty first word followed by more words. */
  lemma SplitJoinEmptyStep(words: seq<string>, sep: char)
    requires |words| > 1 && words[0] == ""
    requires Split(Join(words[1..], sep), sep) == words[1..]
    ensures Split(Join(words, sep), sep) == words
  {
    var s := Join(words, sep);
    assert s == [sep] + Join(words[1..], sep);
    assert s[1..] == Join(words[1..], sep);
    assert [""] + words[1..] == words;
  }

  /** Splitting a join of separator-free words gives the words back. */
  lemma {:induction false} SplitJoin(words: seq<string>, sep: char)
    requires |words| >= 1
    requires forall w :: w in words ==> sep !in w
    ensures Split(Join(words, sep), sep) == words
    decreases |words|, |words[0]|
  {
    var w := words[0];
    if |w| > 0 {
      var shorter := [w[1..]] + words[1..];
      ShorterSepFree(words, sep);
      SplitJoin(shorter, sep);
      assert w in words && w[0] in w;
      SplitJoinHeadStep(words, sep);
    } else if |words| > 1 {
      assert words[1..][0] in words;
      forall v | v in words[1..] ensures sep !in v {
        var j :| 0 <= j < |words[1..]| && words[1..][j] == v;
        assert words[j + 1] == v;
      }
      SplitJoin(words[1..], sep);
      SplitJoinEmptyStep(words, sep);
    }
  }

  /** Every word of a join occurs in the joined string. */
  lemma {:induction false} JoinContainsWords(words: seq<string>, sep: char, w: string)
    requires w in words
    ensures Contains(Join(words, sep), w)
    decreases |words|
  {
    if |words| == 1 {
      ContainsTrivial(w);
    } else if words[0] == w {
      ContainsTrivial(w);
      ContainsConcat(w, [sep] + Join(words[1..], sep), w);
      assert w + ([sep] + Join(words[1..], sep)) == Join(words, sep);
    } else {
      JoinContainsWords(words[1..], sep, w);
      ContainsConcat(words[0] + [sep], Join(words[1..], sep), w);
      assert words[0] + [sep] + Join(words[1..], sep) == Join(words, sep);
    }
  }

  /** Every piece of a split is a substring of the split string. */
  lemma SplitWordsOccur(s: string, sep: char, w: string)
    requires w in Split(s, sep)
    ensures Contains(s, w)
  {
    JoinContainsWords(Split(s, sep), sep, w);
  }

  function DigitChar(d: nat): char
    requires d < 10
  {
    "0123456789"[d]
  }

  predicate IsDigits(s: string) {
    forall i :: 0 <= i < |s| ==> '0' <= s[i] <= '9'
  }

  /** The decimal rendering of a non-negative integer, as a template literal prints it. */
  function DecimalString(n: nat): (r: string)
    ensures |r| >= 1 && IsDigits(r)
    ensures n < 10 <==> |r| == 1
  {
    if n < 10 then [DigitChar(n)] else DecimalString(n / 10) + [DigitChar(n % 10)]
  }

  /** Reads a string of decimal digits back as a number. */
  function DecimalValue(s: string): nat
    requires IsDigits(s)
    decreases |s|
  {
    if |s| == 0 then 0 else DecimalValue(s[..|s| - 1]) * 10 + (s[|s| - 1] as int - '0' as int)
  }

  /** Reading back a rendered number gives the number: rendering loses nothing. */
  lemma {:induction false} DecimalRoundTrip(n: nat)
    ensures DecimalValue(DecimalString(n)) == n
  {
    var r := DecimalString(n);
    DigitValue(n % 10);
    if n >= 10 {
      DecimalRoundTrip(n / 10);
      assert r[..|r| - 1] == DecimalString(n / 10);
      assert r[|r| - 1] == DigitChar(n % 10);
    } else {
      assert n % 10 == n;
    }
  }

  /** A digit character reads back as its digit. */
  lemma DigitValue(d: nat)
    requires d < 10
    ensures DigitChar(d) as int - '0' as int == d
  {
    if d < 5 {
      assert d == 0 || d == 1 || d == 2 || d == 3 || d == 4;
    } else {
      assert d == 5 || d == 6 || d == 7 || d == 8 || d == 9;
    }
  }

  /** Distinct numbers render as distinct strings. */
  lemma DecimalInjective(m: nat, n: nat)
    requires DecimalString(m) == DecimalString(n)
    ensures m == n
  {
    DecimalRoundTrip(m);
    DecimalRoundTrip(n);
  }
}
